=== FILE: README.md ===
# Glimpse client core in Dafny

Glimpse is a React Native photo-sharing client over a managed document
store. Users sign in, create albums from images in their photo library, like
and comment on photos, and browse a feed and their own profile. This project
models the logic the client owns:

- `Service` (`service.dfy`) covers the backend access layer, `FirebaseService`.
  The store is four maps from document id to record: albums, photos,
  comments and users. Every service call is one atomic step on the store.
  A call answers with a `Reply`: the store after the step, and either the
  call's value or the error it throws. A failed call leaves the documents as
  they were (object storage is outside the store). `WellFormed` is the store invariant: every photo's `likeCount` equals
  the length of its duplicate-free `likes` list. `addPhoto` establishes it,
  and every write preserves it. The `where`/`orderBy`/`limit` queries are
  methods specified by `IsQuery` and `IsFeed`.
- `Session` (`session.dfy`) covers `AuthProvider`: the session
  `(user, loading)` driven by auth-state notifications, the merge of the auth
  record with the profile document, and the profile `register` writes.
- `Interactions` (`interactions.dfy`) covers the photo detail panel,
  `PhotoInteractions`: the local like state, the comment input and its
  guards, and the handlers for adding and deleting comments.
- `AlbumForm` (`album_form.dfy`) covers `CreateAlbumScreen`: picker answers,
  validation, the album record, the per-image storage keys
  `albumId_index_now`, the photo records, and a submission that rolls
  nothing back.
- `ProfileScreen` (`profile.dfy`) covers `ProfileScreen`: gathering the user's
  photos album by album, sorting them newest first, the stats, and the
  avatar and name fallbacks.
- `Text`, `Lists` and `Results` hold the JavaScript string operations
  (`trim`, `maxLength`, `split('@')[0]`, upper-casing, decimal rendering),
  the sequence operations (filter-out, insertion sort, sums) and `Option`/`Result`.

The environment is passed in as parameters:

- the ids the store generates for `add` (assumed fresh and distinct, as the
  store guarantees);
- the server clock and `Date.now()` readings, as integers;
- whether each write, delete or transaction commit is accepted;
- the outcome of each storage upload or deletion;
- the outcome of the reads that may throw: `getAlbum`, `getUserProfile`,
  the comment read in `deleteComment`, the profile read on sign-in, and the
  screens' list and comment loads.

## Model

| member | source | states |
|---|---|---|
| Service.CreateAlbum | src/services/firebase.js:6-17 | On acceptance, the fresh id is returned and holds the caller's fields with both timestamps set to the server time; no other album and no other collection changes. On refusal, nothing is written and the error carries the "Failed to create album" wrapper. |
| Service.GetAlbum | src/services/firebase.js:19-29 | Succeeds exactly when the read goes through and the id is stored, answering the id with its record. A failed read and a missing id ("Album not found") both fail inside the "Failed to get album" wrapper. |
| Service.Query | src/services/firebase.js:31-45 | A filtered, ordered query answers exactly the documents that pass the filter, each once, in non-increasing rank. Its length is the number of matching ids. |
| Service.QueryIdsDistinct | src/services/firebase.js:40-43 | No document id appears twice in a query answer. |
| Service.GetUserAlbums | src/services/firebase.js:31-46 | Answers exactly the stored albums whose `userId` is the user, with no duplicates, newest `createdAt` first. |
| Service.DeleteAlbum | src/services/firebase.js:48-78 | A committed delete removes the album and every photo of that album, and nothing else. Other albums, photos, comments and users keep their records. A failed storage deletion never blocks the commit; the model answers the set of image URLs whose storage deletion failed, where the service only logs each failure. An uncommitted delete leaves the documents unchanged and fails with the "Failed to delete album" wrapper. The store invariant is preserved. |
| Service.DeleteAlbumThenRead | src/services/firebase.js:19-29 | After a committed album delete, reading the album fails with "Album not found" and listing its photos answers the empty list. |
| Service.AddPhoto | src/services/firebase.js:91-103 | On acceptance, exactly one new photo appears under the fresh id. It has the caller's fields, the server time, an empty like list and a count of 0, so its count mirrors its list. Nothing else changes. On refusal, nothing is written. |
| Service.GetAlbumPhotos | src/services/firebase.js:105-120 | Answers exactly the stored photos of the album, with no duplicates, oldest first. |
| Service.DeletePhoto | src/services/firebase.js:122-136 | An accepted delete removes that one photo document, a missing photo not being an error, and leaves every other document as it was. A refused delete writes nothing and fails with the "Failed to delete photo" wrapper. |
| Service.ToggleList | src/services/firebase.js:150-158 | The user is a member after the toggle exactly when they were not before. Every other id keeps its membership. A present user is filtered out with the other likes kept in order and with their copies; on a duplicate-free list that cuts the user out at their one position. An absent user is appended at the end. A duplicate-free list stays duplicate-free. |
| Service.ToggleLike | src/services/firebase.js:139-170 | The toggle fails exactly when the photo is missing or the transaction is not committed. A missing photo fails with the bare "Photo not found" error and a refused commit with a bare rejection, neither inside the service's wrapper, and neither writes anything. Otherwise the call answers the negation of the old membership, a missing list counting as empty. It writes the toggled list and a count equal to its length, and changes no other field, photo or collection. The store invariant is preserved. |
| Service.ToggleLikeTwice | src/services/firebase.js:150-165 | Two toggles by one user on a duplicate-free list both succeed and answer opposite values. Membership and the count are restored, and so is the whole list when the user had not liked the photo. |
| Service.ToggleAll | src/services/firebase.js:150-163 | Any run of toggles keeps a duplicate-free like list duplicate-free. |
| Service.ToggleAllParity | src/services/firebase.js:150-163 | After any run of toggles, a user is in the list exactly when their membership at the start differs from the parity of their toggles, so no toggle is lost. |
| Service.AddComment | src/services/firebase.js:172-184 | On acceptance, exactly one new comment with the given photo, author, text and server time appears under the fresh id, and nothing else changes. On refusal, nothing is written. |
| Service.GetPhotoComments | src/services/firebase.js:186-214 | Answers every comment on the photo, and only those, each once and oldest first. Each is joined with the lookup of its author's profile, absent when there is no profile document. |
| Service.DeleteComment | src/services/firebase.js:216-234 | Succeeds exactly when the read and the delete both go through, the comment exists and the caller wrote it, and then removes only that comment. A failed read, a missing comment ("Comment not found"), a foreign one ("Unauthorized to delete this comment") and a refused delete each fail inside the "Failed to delete comment" wrapper, and none writes anything. |
| Service.GetFeedPhotos | src/services/firebase.js:237-272 | Answers at most `limit` stored photos, each once and newest first. No photo newer than one inside the cut-off is left out. All photos are returned when fewer than `limit` came back. Each row is joined with its album and owner. |
| Service.NewestPhotoInFeed | src/services/firebase.js:237-272 | A photo strictly newer than every other is the first row of any feed whose limit is at least one, with its album's title and its owner's username. |
| Service.GetUserProfile | src/services/firebase.js:275-284 | Succeeds exactly when the read goes through and the profile document exists, answering it with its id. A failed read and a missing document ("User not found") both fail inside the "Failed to get user profile" wrapper. |
| Session.Merge | src/context/AuthContext.js:29-32 | The merged user has every field of either record, and the profile's value wins on a clash. |
| Session.OnAuthStateChanged | src/context/AuthContext.js:20-41 | After any notification, loading is off. Signing out clears the user. Signing in with a profile document gives the merged record. Signing in when the profile is missing or the read throws gives the bare auth record. |
| Session.RunDependsOnLast | src/context/AuthContext.js:16-41 | Before any notification there is no user and the session is loading. After one or more, loading is off and the session is determined by the last notification alone. |
| Session.ReadProfile | src/context/AuthContext.js:22-36 | The handler's profile read throws exactly when the store is unreachable. Otherwise it finds a document exactly when the user has a profile, and the fields are that profile's. |
| Session.Register | src/context/AuthContext.js:54-72 | `register` resolves exactly when the profile write and `updateProfile` both succeed. An accepted write stores `users/{uid}` with the username, the email and the server time, and keeps every other user. The auth record gets `displayName` set to the username only when `updateProfile` succeeds; when it fails, the document stays written and the record is unchanged. A refused write changes neither. |
| Session.RegisterThenSignIn | src/context/AuthContext.js:20-72 | A user whose profile was written and who then signs in has a session user carrying the registered username and email. The display name is the username when `updateProfile` succeeded, and the auth record's own otherwise. |
| Session.RegisterThenGetProfile | src/context/AuthContext.js:62-66 | After an accepted registration write, `getUserProfile` answers the written profile: the username, the email and the server time under the user's id. |
| Interactions.ShowPhoto | src/components/PhotoInteractions.js:27-33 | The panel shows liked exactly when the viewer is in the photo's like list. The count shown is the stored count, or 0 when it is missing. |
| Interactions.ShowPhotoInSync | src/components/PhotoInteractions.js:29-30 | On a photo whose count mirrors its list, the panel starts in agreement with the stored list. |
| Interactions.HandleLike | src/components/PhotoInteractions.js:47-58 | After a successful toggle, the panel shows the returned status and moves its count by one in that direction. After a failed toggle (missing photo or refused commit), neither the panel nor the store changes. |
| Interactions.HandleLikeKeepsSync | src/components/PhotoInteractions.js:47-58 | When nobody else touches the photo, a panel that agrees with the stored like list still agrees after its own toggle, and the store stays well formed. |
| Interactions.CanSend | src/components/PhotoInteractions.js:153-161 | Send is enabled exactly when no comment is being sent and the input holds a character that is not white space. |
| Interactions.ShowDeleteMatchesService | src/components/PhotoInteractions.js:89-93 | For a stored comment, the delete icon shows exactly when the service would accept the deletion once the backend answers. Without the icon, no deletion by that viewer can succeed. |
| Interactions.EditComment | src/components/PhotoInteractions.js:145-152 | The input keeps a prefix of the typed text of at most 200 characters, and all of the text when it fits. |
| Interactions.LoadComments | src/components/PhotoInteractions.js:35-45 | On success, the panel lists what `getPhotoComments` answers: every stored comment of the photo and only those, with their stored data and author lookup, each once and oldest first. On failure, it keeps the old list. The spinner stops either way, and the like state and the input are untouched. |
| Interactions.HandleAddComment | src/components/PhotoInteractions.js:60-72 | Blank or white-space input changes nothing. Otherwise the store is what `addComment` leaves with the trimmed text. When accepted, that text is a new comment by the viewer, no other collection changes, the input is cleared, and the reloaded list is the photo's comments in the new store, including the new one. A refused write keeps the input and the list. The send spinner is off afterwards. |
| Interactions.HandleDeleteComment | src/components/PhotoInteractions.js:74-81 | The store is what `deleteComment` leaves. A refused or failed deletion changes neither store nor panel. The author's deletion, when the backend answers, removes only that comment, and the reloaded list is the photo's comments in the new store, without the deleted one. |
| AlbumForm.SelectImages | src/screens/album/CreateAlbumScreen.js:27-40 | A pick with at least one asset replaces the selection. A cancelled or empty pick keeps the previous selection. |
| AlbumForm.PickedFormPassesPhotoGuard | src/screens/album/CreateAlbumScreen.js:36-51 | After a non-empty pick, submission is never refused for having no photos. |
| AlbumForm.EditTitle | src/screens/album/CreateAlbumScreen.js:107-113 | The title keeps a prefix of the typed text of at most 50 characters, and all of the text when it fits. |
| AlbumForm.EditDescription | src/screens/album/CreateAlbumScreen.js:115-123 | The description keeps a prefix of the typed text of at most 200 characters, and all of the text when it fits. |
| AlbumForm.Validate | src/screens/album/CreateAlbumScreen.js:43-51 | A form passes exactly when its title holds a character that is not white space and at least one image is selected. A blank title is reported first, even when no image is selected. |
| AlbumForm.PhotoKeyIndex | src/screens/album/CreateAlbumScreen.js:65-66 | The image index can be read back from a storage key: it is the text between the album id's separator and the next `_`. |
| AlbumForm.PhotoKeysDistinct | src/screens/album/CreateAlbumScreen.js:65-66 | Two different images of one album never get the same storage key, whatever the clock reads when each key is built. |
| AlbumForm.UploadFrom | src/screens/album/CreateAlbumScreen.js:65-81 | Each image whose upload and write both succeed gets exactly one photo document. That document has the album id, the creator, the uploaded URL as image and thumbnail, the picker's file facts and an empty like list. No other document appears, and existing ones are untouched. The number written is below the number of images unless every image succeeded. |
| AlbumForm.Publish | src/screens/album/CreateAlbumScreen.js:53-99 | A refused album write stores nothing and ends in the failure alert. An accepted one stores the album with the trimmed title and description, the creator and `photoCount` equal to the number of selected images. Success means every image was stored, and then the form resets. On failure, nothing is rolled back: the album stays with a `photoCount` above the number of photos stored, and the form keeps its contents. |
| AlbumForm.Submit | src/screens/album/CreateAlbumScreen.js:42-100 | A form the guards refuse writes nothing, keeps the form and shows the guard's message. Otherwise the submission is published. Only success clears the form. |
| ProfileScreen.LoadUserData | src/screens/profile/ProfileScreen.js:33-67 | If listing the albums throws, both lists are kept. Otherwise the albums are exactly the user's, newest first. The photos are exactly the stored photos of those albums whose fetch did not throw, each once and newest first. Both spinners are off at the end. |
| ProfileScreen.SortNewest | src/screens/profile/ProfileScreen.js:52-59 | The sorted list is a permutation of the gathered photos, ordered by creation time newest first. |
| ProfileScreen.HandleRefresh | src/screens/profile/ProfileScreen.js:69-72 | A refresh reloads the same data as a load: the user's albums, and the photos of those albums each once and newest first. Both spinners are off afterwards. |
| ProfileScreen.TotalLikesOrderFree | src/screens/profile/ProfileScreen.js:231 | The Likes stat is the same for any ordering of the same photos, so sorting does not change it. |
| ProfileScreen.TotalLikesCountsLikeLists | src/screens/profile/ProfileScreen.js:231 | On photos whose counts mirror their like lists, the Likes stat equals the total length of those lists. |
| ProfileScreen.LoadedLikesStat | src/screens/profile/ProfileScreen.js:217-234 | Over photos read from a well-formed store, the Likes stat counts the recorded likes and is never negative. |
| ProfileScreen.Field | src/screens/profile/ProfileScreen.js:173-186 | A user field reads as its text when it holds text, and as the empty (falsy) string when it is absent, null or the user is signed out. |
| ProfileScreen.AvatarInitial | src/screens/profile/ProfileScreen.js:173-174 | The avatar shows the upper-cased first character of the display name, else of the email, else `U`. |
| ProfileScreen.DisplayName | src/screens/profile/ProfileScreen.js:186 | The name line is never empty. It is the display name when there is one. Otherwise, when the part of the email before its first `@` is non-empty, it is that part: a prefix with no `@` that runs to the first `@` or to the end of the email. Failing both, it is `User`. |
| ProfileScreen.AvatarMatchesName | src/screens/profile/ProfileScreen.js:173-186 | The avatar shows the upper-cased first character of the name line, except for a user with no display name whose email starts with `@`. |
| Text.Trim | src/components/PhotoInteractions.js:61 | `trim` yields an infix of the input with only white space cut on either side. The result starts and ends with a non-space character, and it is empty exactly when the input is all white space. |
| Text.TrimIdempotent | src/components/PhotoInteractions.js:65 | Trimming an already trimmed text changes nothing. |
| Text.BeforeFirstAt | src/screens/profile/ProfileScreen.js:186 | `split(c)[0]` of a text whose first `c` follows a `c`-free prefix is that prefix. |
| Text.NatToStringInjective | src/screens/album/CreateAlbumScreen.js:66 | Distinct non-negative integers render to distinct decimal strings. |
| Lists.Without | src/services/firebase.js:155 | Filtering removes every occurrence of the value, never lengthens the list and leaves a list without the value unchanged. |
| Lists.WithoutKeeps | src/services/firebase.js:155 | Every value other than the removed one is in the filtered list exactly when it was in the input. |
| Lists.WithoutAt | src/services/firebase.js:155 | On a duplicate-free list, filtering a present value removes exactly its position and keeps the others in order. |
| Lists.SortBy | src/screens/profile/ProfileScreen.js:53-57 | The sort returns a permutation of its input in non-increasing rank, and a duplicate-free input stays duplicate-free. |
| Lists.SumByPermutation | src/screens/profile/ProfileScreen.js:231 | A sum does not depend on the order of its terms. |

## Left out

- Object storage: the upload, the download URL and delete-by-URL are foreign I/O. An upload is a parameter answering a URL or failure, and a storage deletion is a parameter whose failure is only reported.
- The transaction primitive's optimistic concurrency and retry: `toggleLike` is one atomic step.
- `Promise.all` parallelism: the enrichment joins are pure lookups. Parallel uploads are modelled as independent per-image outcomes taken in index order; since the images write distinct ids, the final store does not depend on the order.
- Firestore's tie order for equal `createdAt` values (it breaks ties by document name) is not modelled: the query methods leave the order of equal ranks unspecified.
- A pending server timestamp read back as `null` is an integer like any other time. The `Timestamp.toDate()` and `new Date()` conversions in the profile sort compare the same integers.
- src/hooks/useFirestore.js, App.js, the feed, album-detail and photo-viewer screens and src/components/PhotoGrid.js are not part of this model. They hold live-subscription plumbing, navigation, rendering and screen-width arithmetic.
- Alerts, styles, locale date formatting, `console` logging, navigation after success and the logout confirmation are left out; the alert a submission ends with is the `Outcome`.
- The auth provider's sign-in, sign-up and sign-out calls appear only as the notifications they deliver. Creating the auth account in `register` is outside the model.
- The session merge is a map overlay. JavaScript spread copies only an SDK object's own enumerable properties, which the model does not distinguish.
- ProfileScreen.Field: a field holding a non-string value (where `charAt` or `split` would throw) is read as absent.
- ProfileScreen.AvatarInitial: upper-casing covers the ASCII letters only; other characters are shown unchanged. Characters are Unicode scalar values, so `charAt(0)` splitting a surrogate pair is not modelled.
- Interactions.HandleAddComment: the comment reload after a successful add is taken to succeed; `Interactions.LoadComments` models the failing reload on its own.
- Interactions.HandleDeleteComment: the reload after a deletion is taken to succeed, as in `HandleAddComment`.
- Interactions.HandleLike: the local count follows the service's answer by ±1 and is not re-read from the store. `HandleLikeKeepsSync` covers one mounted panel only: concurrent likes by others, and the viewer's own toggle followed by closing and reopening the panel (which reseeds it from the screen's stale photo snapshot, showing the old heart and count), are outside what it states.
- AlbumForm.Submit: the screen is reachable only when signed in, so the creator's uid is a parameter. A null user would throw inside the `try` and end in the same failure alert.
- ProfileScreen.LoadUserData: JavaScript's sort is stable, so the gathered order of equal times survives; the contract states the permutation and the order, but not stability.
- Session.RunDependsOnLast: the handler never reads the previous session, so the lemma follows from the handler's definition alone.
- `deletePhoto`'s `imageUrl` argument serves only the storage deletion, so `Service.DeletePhoto` takes just the photo id.
- The profile screen renders a `RefreshControl` that its import list does not name. Once loading ends, rendering the list would throw a `ReferenceError`, so the stats, avatar and name line would never appear and pull to refresh would be unreachable. Rendering is outside the model, which describes what the screen would show if that import were present.
- Session.RunDependsOnLast: notifications are handled one at a time. The source's handler awaits the profile read, so a sign-out that arrives during that read can be overwritten by the earlier sign-in's `setUser`; interleaved handlers are not modelled.
- Session.RegisterThenSignIn: the notification caused by creating the account arrives before `register` writes the profile, so that first session carries no username. The lemma covers a sign-in after the write.
- Interactions.EditComment: lengths are counted in Unicode scalar values, while `maxLength` counts UTF-16 code units, so text with characters outside the Basic Multilingual Plane is cut later in the model than in the app.
- AlbumForm.EditTitle: lengths are counted in Unicode scalar values, not the UTF-16 code units `maxLength={50}` counts.
- AlbumForm.EditDescription: lengths are counted in Unicode scalar values, not the UTF-16 code units `maxLength={200}` counts.
- The query methods `Service.GetUserAlbums`, `Service.GetAlbumPhotos`, `Service.GetPhotoComments` and `Service.GetFeedPhotos` never fail. A failing query is modelled at the screens that call them (`ProfileScreen.LoadUserData`, `Interactions.LoadComments`); the feed screen, which would see `getFeedPhotos` throw, is not part of this model.
- `getFeedPhotos`' default `limit` of 50 is not modelled: `Service.GetFeedPhotos` always takes the limit as an argument.
- AlbumForm.Publish: the album write and every photo write share one server time, `serverNow`, where the backend stamps each write separately. Nothing the contracts state depends on those times.
- Service.DeleteAlbum: object storage is not modelled, so an uncommitted delete is stated only for the documents; the images deleted before `batch.commit()` stay deleted. A failing photo query (before any image is deleted) and a refused commit (after) are one failure, `commitOk`, since the documents end the same in both.

=== FILE: album_form.dfy ===
/** The album creation screen (`CreateAlbumScreen`): the form, the image
    picker's answer, validation, and the submission that writes the album,
    uploads every selected image under a per-image storage key and writes one
    photo document per uploaded image. Object storage, the auto ids the
    backend hands out, `Date.now()` and the acceptance of each write are the
    environment `Backend`. */
module AlbumForm {
  import opened Results
  import opened Text
  import opened Lists
  import opened Service

  /** The title input's `maxLength`. */
  const TitleMaxLength: nat := 50
  /** The description input's `maxLength`. */
  const DescriptionMaxLength: nat := 200

  /** A picked image: its local URI and the file facts the picker reports. */
  datatype Asset = Asset(uri: string, fileName: Option<string>, fileSize: Option<int>)

  /** The picker's answer; `assets` is missing when the user cancels. */
  datatype PickerResponse = PickerResponse(assets: Option<seq<Asset>>)

  datatype Form = Form(title: string, description: string, selected: seq<Asset>, uploading: bool)

  /** The form as first shown and as reset after a successful submission. */
  const Blank: Form := Form("", "", [], false)

  /** What the environment answers during one submission. `albumId` is the id
      the album write receives; for image `k`, `clock[k]` is the `Date.now()`
      reading taken for it, `upload(uri, key)` the download URL of a
      successful upload (`None` when the upload throws), `photoIds[k]` the id
      its photo write receives and `addAccepted[k]` whether that write
      succeeds. `serverNow` stands for the server timestamp of every write of
      the submission: the model gives them one time where the backend stamps
      each write separately. */
  datatype Backend = Backend(
    albumId: Id,
    albumAccepted: bool,
    clock: seq<nat>,
    upload: (string, string) -> Option<string>,
    photoIds: seq<Id>,
    addAccepted: seq<bool>,
    serverNow: int)

  /** The alert a submission ends with. */
  datatype Outcome = Invalid(message: string) | Created | Failed

  /** `selectImages`' callback: a non-empty list of assets replaces the
      selection; a cancelled or empty pick keeps the previous one. */
  function SelectImages(f: Form, response: PickerResponse): (r: Form)
    ensures response.assets.Some? && |response.assets.value| > 0 ==> r.selected == response.assets.value
    ensures response.assets.None? || response.assets.value == [] ==> r.selected == f.selected
    ensures r.title == f.title && r.description == f.description && r.uploading == f.uploading
  {
    match response.assets
    case Some(assets) => if |assets| > 0 then f.(selected := assets) else f
    case None => f
  }

  /** Typing into the title input. */
  function EditTitle(f: Form, typed: string): (r: Form)
    ensures |r.title| <= TitleMaxLength
    ensures |r.title| <= |typed| && r.title == typed[..|r.title|]
    ensures |typed| <= TitleMaxLength ==> r.title == typed
    ensures r.description == f.description && r.selected == f.selected
  {
    f.(title := Truncate(typed, TitleMaxLength))
  }

  /** Typing into the description input. */
  function EditDescription(f: Form, typed: string): (r: Form)
    ensures |r.description| <= DescriptionMaxLength
    ensures |r.description| <= |typed| && r.description == typed[..|r.description|]
    ensures |typed| <= DescriptionMaxLength ==> r.description == typed
    ensures r.title == f.title && r.selected == f.selected
  {
    f.(description := Truncate(typed, DescriptionMaxLength))
  }

  /** The two guards of `createAlbum`, the title first: the alert message
      when one of them refuses the form. */
  function Validate(f: Form): (r: Option<string>)
    ensures r.None? <==> !AllSpace(f.title) && |f.selected| > 0
    ensures AllSpace(f.title) ==> r == Some("Please enter an album title")
    ensures !AllSpace(f.title) && f.selected == [] ==> r == Some("Please select at least one photo")
  {
    if Trim(f.title) == [] then Some("Please enter an album title")
    else if |f.selected| == 0 then Some("Please select at least one photo")
    else None
  }

  /** A pick with at least one asset clears the photo guard. */
  lemma PickedFormPassesPhotoGuard(f: Form, response: PickerResponse)
    requires response.assets.Some? && |response.assets.value| > 0
    ensures Validate(SelectImages(f, response)) != Some("Please select at least one photo")
  {
  }

  /** The storage key of image `index`: `${albumId}_${index}_${now}`. */
  function PhotoKey(albumId: Id, index: nat, now: nat): string {
    albumId + "_" + NatToString(index) + "_" + NatToString(now)
  }

  /** The image index can be read back from a key: it is the text between
      the album id's separator and the next `_`. */
  lemma PhotoKeyIndex(albumId: Id, index: nat, now: nat)
    ensures var key := PhotoKey(albumId, index, now);
            |albumId| < |key| && BeforeFirst(key[|albumId| + 1..], '_') == NatToString(index)
  {
    var key := PhotoKey(albumId, index, now);
    var digits := NatToString(index);
    assert key[|albumId| + 1..] == digits + ['_'] + NatToString(now);
    assert '_' !in digits by {
      forall i | 0 <= i < |digits| ensures digits[i] != '_' { assert IsDigit(digits[i]); }
    }
    BeforeFirstAt(digits, '_', NatToString(now));
  }

  /** Two images of one submission never share a storage key, whatever the
      clock reads when each key is built. */
  lemma PhotoKeysDistinct(albumId: Id, i: nat, j: nat, nowI: nat, nowJ: nat)
    requires i != j
    ensures PhotoKey(albumId, i, nowI) != PhotoKey(albumId, j, nowJ)
  {
    PhotoKeyIndex(albumId, i, nowI);
    PhotoKeyIndex(albumId, j, nowJ);
    if PhotoKey(albumId, i, nowI) == PhotoKey(albumId, j, nowJ) {
      NatToStringInjective(i, j);
    }
  }

  /** The photo fields the screen sends for an image uploaded to `url`; the
      thumbnail is the image itself. */
  function PhotoRecord(albumId: Id, uid: Id, image: Asset, url: string): PhotoData {
    PhotoData(albumId, uid, url, url, Metadata(image.fileName, image.fileSize))
  }

  /** The download URL of image `k`'s upload, if it succeeds. */
  function Upload(albumId: Id, images: seq<Asset>, b: Backend, k: nat): Option<string>
    requires k < |images| && k < |b.clock|
  {
    b.upload(images[k].uri, PhotoKey(albumId, k, b.clock[k]))
  }

  /** Image `k` ends up as a photo document: its upload and its write both
      succeed. */
  predicate Stored(albumId: Id, images: seq<Asset>, b: Backend, k: nat)
    requires k < |images| && k < |b.clock| && k < |b.addAccepted|
  {
    Upload(albumId, images, b, k).Some? && b.addAccepted[k]
  }

  /** One answer per image, and photo ids that are distinct and not yet
      taken from image `from` on. */
  predicate Ready(s: Store, images: seq<Asset>, b: Backend, from: nat) {
    && |b.clock| == |images| && |b.photoIds| == |images| && |b.addAccepted| == |images|
    && NoDup(b.photoIds)
    && forall k :: from <= k < |b.photoIds| ==> b.photoIds[k] !in s.photos
  }

  /** The photo document written for image `k`. */
  ghost predicate IsPhotoOf(p: Photo, albumId: Id, uid: Id, image: Asset, url: string) {
    && p.albumId == albumId && p.userId == uid
    && p.imageUrl == url && p.thumbnailUrl == p.imageUrl
    && p.metadata == Metadata(image.fileName, image.fileSize)
    && Likes(p) == [] && CountMirrorsLikes(p)
  }

  /** What the upload of images `from..` promises: nothing but photos
      changes, every earlier photo stays, each new photo document comes from
      an image whose upload and write succeeded and every such image has its
      document, and `n` photo documents are written. */
  ghost predicate UploadedFrom(s: Store, albumId: Id, uid: Id, images: seq<Asset>, b: Backend, from: nat, t: Store, n: nat)
    requires from <= |images| && Ready(s, images, b, from)
  {
    && t.albums == s.albums && t.comments == s.comments && t.users == s.users
    && (forall id :: id in s.photos ==> id in t.photos && t.photos[id] == s.photos[id])
    && (forall id :: id in t.photos ==>
          id in s.photos || exists k :: from <= k < |images| && b.photoIds[k] == id && Stored(albumId, images, b, k))
    && (forall k :: from <= k < |images| && Stored(albumId, images, b, k) ==>
          b.photoIds[k] in t.photos
          && IsPhotoOf(t.photos[b.photoIds[k]], albumId, uid, images[k], Upload(albumId, images, b, k).value))
    && |t.photos| == |s.photos| + n
    && n <= |images| - from
    && (n == |images| - from <==> forall k :: from <= k < |images| ==> Stored(albumId, images, b, k))
  }

  /** Every selected image was uploaded and written. */
  predicate AllStored(albumId: Id, images: seq<Asset>, b: Backend)
    requires |b.clock| == |images| && |b.addAccepted| == |images|
  {
    forall k :: 0 <= k < |images| ==> Stored(albumId, images, b, k)
  }

  /** The photo documents of `t` beyond those of `s`: exactly one per image
      whose upload and write succeeded, built from that image. */
  ghost predicate PhotosAdded(s: Store, t: Store, albumId: Id, uid: Id, images: seq<Asset>, b: Backend)
    requires Ready(s, images, b, 0)
  {
    && (forall k :: 0 <= k < |images| && Stored(albumId, images, b, k) ==>
          b.photoIds[k] in t.photos
          && IsPhotoOf(t.photos[b.photoIds[k]], albumId, uid, images[k], Upload(albumId, images, b, k).value))
    && (forall id :: id in t.photos ==>
          id in s.photos || exists k :: 0 <= k < |images| && b.photoIds[k] == id && Stored(albumId, images, b, k))
  }

  /** The per-image upload-then-write for images `from..`. `Promise.all`
      lets every branch run to completion even after another has failed, so
      each image's outcome is independent of the others'; the answer is the
      store and the number of photo documents written. */
  function UploadFrom(s: Store, albumId: Id, uid: Id, images: seq<Asset>, b: Backend, from: nat): (r: (Store, nat))
    requires from <= |images| && Ready(s, images, b, from)
    ensures UploadedFrom(s, albumId, uid, images, b, from, r.0, r.1)
    ensures WellFormed(s) ==> WellFormed(r.0)
    decreases |images| - from
  {
    if from == |images| then (s, 0)
    else
      match Upload(albumId, images, b, from)
      case None =>
        var (t, n) := UploadFrom(s, albumId, uid, images, b, from + 1);
        UploadSkipped(s, albumId, uid, images, b, from, t, n);
        (t, n)
      case Some(url) =>
        var reply := AddPhoto(s, PhotoRecord(albumId, uid, images[from], url), b.photoIds[from], b.serverNow, b.addAccepted[from]);
        UploadStep(s, reply.store, images, b, from);
        var (t, n) := UploadFrom(reply.store, albumId, uid, images, b, from + 1);
        var m := if b.addAccepted[from] then n + 1 else n;
        UploadWritten(s, reply.store, albumId, uid, images, b, from, t, n, m);
        (t, m)
  }

  /** After image `from`'s write the later ids are still free. */
  lemma UploadStep(s: Store, t: Store, images: seq<Asset>, b: Backend, from: nat)
    requires from < |images| && Ready(s, images, b, from)
    requires t.photos.Keys <= s.photos.Keys + {b.photoIds[from]}
    ensures Ready(t, images, b, from + 1)
  {
    forall k | from + 1 <= k < |b.photoIds| ensures b.photoIds[k] !in t.photos {
      assert b.photoIds[k] != b.photoIds[from];
    }
  }

  /** An image whose upload throws adds nothing. */
  lemma UploadSkipped(s: Store, albumId: Id, uid: Id, images: seq<Asset>, b: Backend, from: nat, t: Store, n: nat)
    requires from < |images| && Ready(s, images, b, from)
    requires Upload(albumId, images, b, from).None?
    requires UploadedFrom(s, albumId, uid, images, b, from + 1, t, n)
    ensures UploadedFrom(s, albumId, uid, images, b, from, t, n)
  {
    assert !Stored(albumId, images, b, from);
  }

  /** An image whose upload succeeds is written, or its write is refused. */
  lemma UploadWritten(s: Store, mid: Store, albumId: Id, uid: Id, images: seq<Asset>, b: Backend, from: nat,
                      t: Store, n: nat, m: nat)
    requires from < |images| && Ready(s, images, b, from)
    requires Upload(albumId, images, b, from).Some?
    requires mid == AddPhoto(s, PhotoRecord(albumId, uid, images[from], Upload(albumId, images, b, from).value),
                             b.photoIds[from], b.serverNow, b.addAccepted[from]).store
    requires Ready(mid, images, b, from + 1)
    requires UploadedFrom(mid, albumId, uid, images, b, from + 1, t, n)
    requires m == if b.addAccepted[from] then n + 1 else n
    ensures UploadedFrom(s, albumId, uid, images, b, from, t, m)
  {
    var id := b.photoIds[from];
    var url := Upload(albumId, images, b, from).value;
    if b.addAccepted[from] {
      assert Stored(albumId, images, b, from);
      assert mid.photos.Keys == s.photos.Keys + {id};
      assert |mid.photos| == |mid.photos.Keys| == |s.photos.Keys| + 1;
      assert IsPhotoOf(mid.photos[id], albumId, uid, images[from], url);
      forall x | x in t.photos
        ensures x in s.photos || exists k :: from <= k < |images| && b.photoIds[k] == x && Stored(albumId, images, b, k)
      {
        if x !in mid.photos {
          var k :| from + 1 <= k < |images| && b.photoIds[k] == x && Stored(albumId, images, b, k);
        } else if x !in s.photos {
          assert x == b.photoIds[from];
        }
      }
    } else {
      assert !Stored(albumId, images, b, from);
      assert mid == s;
    }
  }

  /** The form and backend answers fit together: fresh album id, and one
      answer and one fresh photo id per selected image. */
  predicate Fits(s: Store, f: Form, b: Backend) {
    b.albumId !in s.albums && Ready(s, f.selected, b, 0)
  }

  /** `createAlbum` on the screen. A refused form writes nothing, leaves the
      form as it is and shows the guard's message; an accepted one is
      published. */
  function Submit(f: Form, s: Store, uid: Id, b: Backend): (r: (Form, Store, Outcome))
    requires Fits(s, f, b)
    ensures Validate(f).Some? ==> r == (f, s, Invalid(Validate(f).value))
    ensures Validate(f).None? ==> r == Publish(f, s, uid, b) && !r.2.Invalid?
    ensures r.2 != Created ==> r.0.title == f.title && r.0.description == f.description && r.0.selected == f.selected
  {
    match Validate(f)
    case Some(message) => (f, s, Invalid(message))
    case None => Publish(f, s, uid, b)
  }

  /** The body of `createAlbum`'s `try`. The album is written with the
      trimmed title and description, the creator and the number of selected
      images, then every image is uploaded and written as a photo. Nothing
      is rolled back when a step fails: the album stays, announcing more
      photos than were stored. The form is reset only when everything
      succeeded; the spinner is off afterwards. */
  function Publish(f: Form, s: Store, uid: Id, b: Backend): (r: (Form, Store, Outcome))
    requires Fits(s, f, b)
    ensures !r.0.uploading && !r.2.Invalid?
    ensures !b.albumAccepted ==> r == (f.(uploading := false), s, Failed)
    ensures b.albumAccepted ==>
      && b.albumId in r.1.albums
      && r.1.albums[b.albumId].title == Trim(f.title)
      && r.1.albums[b.albumId].description == Trim(f.description)
      && r.1.albums[b.albumId].userId == uid
      && r.1.albums[b.albumId].photoCount == |f.selected|
      && r.1.albums.Keys == s.albums.Keys + {b.albumId}
      && (forall a :: a in s.albums ==> r.1.albums[a] == s.albums[a])
    ensures b.albumAccepted ==> PhotosAdded(s, r.1, b.albumId, uid, f.selected, b)
    ensures b.albumAccepted ==> (r.2 == Created <==> AllStored(b.albumId, f.selected, b))
    ensures r.2 == Created ==> r.0 == Blank && |r.1.photos| == |s.photos| + |f.selected|
    ensures r.2 == Failed ==> r.0 == f.(uploading := false)
    ensures r.2 == Failed && b.albumAccepted ==>
      b.albumId in r.1.albums && |r.1.photos| - |s.photos| < r.1.albums[b.albumId].photoCount
    ensures r.1.comments == s.comments && r.1.users == s.users
    ensures forall id :: id in s.photos ==> id in r.1.photos && r.1.photos[id] == s.photos[id]
    ensures WellFormed(s) ==> WellFormed(r.1)
  {
    if !b.albumAccepted then (f.(uploading := false), s, Failed)
    else
      var mid := CreateAlbum(s, AlbumOf(f, uid), b.albumId, b.serverNow, true).store;
      var u := UploadFrom(mid, b.albumId, uid, f.selected, b, 0);
      AlbumThenUploads(s, f, uid, b, mid, u.0, u.1);
      var done := u.1 == |f.selected|;
      (if done then Blank else f.(uploading := false), u.0, if done then Created else Failed)
  }

  /** The album document a valid form describes. */
  function AlbumOf(f: Form, uid: Id): (r: AlbumData)
    ensures r.title == Trim(f.title) && r.description == Trim(f.description)
    ensures r.userId == uid && r.photoCount == |f.selected|
  {
    AlbumData(Trim(f.title), Trim(f.description), uid, |f.selected|)
  }

  /** The album write followed by the uploads, read against the store
      before either. */
  lemma AlbumThenUploads(s: Store, f: Form, uid: Id, b: Backend, mid: Store, t: Store, n: nat)
    requires Fits(s, f, b)
    requires mid == CreateAlbum(s, AlbumOf(f, uid), b.albumId, b.serverNow, true).store
    requires Ready(mid, f.selected, b, 0) && (t, n) == UploadFrom(mid, b.albumId, uid, f.selected, b, 0)
    ensures b.albumId in t.albums
    ensures t.albums[b.albumId].title == Trim(f.title) && t.albums[b.albumId].description == Trim(f.description)
    ensures t.albums[b.albumId].userId == uid && t.albums[b.albumId].photoCount == |f.selected|
    ensures t.albums.Keys == s.albums.Keys + {b.albumId}
    ensures forall a :: a in s.albums ==> t.albums[a] == s.albums[a]
    ensures t.comments == s.comments && t.users == s.users
    ensures forall id :: id in s.photos ==> id in t.photos && t.photos[id] == s.photos[id]
    ensures PhotosAdded(s, t, b.albumId, uid, f.selected, b)
    ensures |t.photos| == |s.photos| + n && n <= |f.selected|
    ensures n == |f.selected| <==> AllStored(b.albumId, f.selected, b)
    ensures WellFormed(s) ==> WellFormed(t)
  {
    assert UploadedFrom(mid, b.albumId, uid, f.selected, b, 0, t, n);
    assert forall a :: a in s.albums ==> a != b.albumId && mid.albums[a] == s.albums[a];
  }
}

=== FILE: interactions.dfy ===
/** The photo detail panel (`PhotoInteractions`): the viewer's local like
    state and count, the comment list, the comment input and the guards
    around them. Each handler takes the panel state and the store and
    answers both after the backend calls it makes. */
module Interactions {
  import opened Results
  import opened Text
  import opened Lists
  import opened Service

  /** The comment input's `maxLength`. */
  const CommentMaxLength: nat := 200

  datatype Panel = Panel(
    isLiked: bool,
    likeCount: int,
    comments: seq<CommentView>,
    newComment: string,
    loading: bool,
    commentsLoading: bool)

  /** The photo effect's like state: liked exactly when the viewer is in the
      like list (a missing list counts as empty), and the stored count, 0 when
      it is missing. */
  function ShowPhoto(v: Panel, photo: Photo, uid: Id): (r: Panel)
    ensures r.isLiked <==> photo.likes.Some? && uid in photo.likes.value
    ensures photo.likeCount.Some? ==> r.likeCount == photo.likeCount.value
    ensures photo.likeCount.None? ==> r.likeCount == 0
    ensures r.comments == v.comments && r.newComment == v.newComment && r.loading == v.loading
  {
    v.(isLiked := uid in Likes(photo), likeCount := photo.likeCount.UnwrapOr(0))
  }

  /** The panel's like state agrees with the stored photo. */
  predicate InSync(v: Panel, p: Photo, uid: Id) {
    v.isLiked == (uid in Likes(p)) && v.likeCount == |Likes(p)|
  }

  /** On a photo whose count mirrors its list, the panel starts in sync. */
  lemma ShowPhotoInSync(v: Panel, p: Photo, uid: Id)
    requires CountMirrorsLikes(p)
    ensures InSync(ShowPhoto(v, p, uid), p, uid)
  {
  }

  /** `handleLike`: toggles the like in the store; on success the panel takes
      the returned status and moves its count by one in that direction, on
      failure (the alert) nothing changes. */
  function HandleLike(v: Panel, s: Store, photoId: Id, uid: Id, committed: bool): (r: (Store, Panel))
    ensures var reply := ToggleLike(s, photoId, uid, committed);
      && r.0 == reply.store
      && (reply.result.Ok? ==> r.1 == v.(isLiked := reply.result.value,
                                           likeCount := if reply.result.value then v.likeCount + 1 else v.likeCount - 1))
      && (reply.result.Err? ==> r == (s, v))
  {
    var reply := ToggleLike(s, photoId, uid, committed);
    match reply.result
    case Err(_) => (s, v)
    case Ok(liked) => (reply.store, v.(isLiked := liked, likeCount := if liked then v.likeCount + 1 else v.likeCount - 1))
  }

  /** When nobody else touches the photo, the panel stays in sync with the
      stored like list through any number of its own toggles, committed or
      not. */
  lemma HandleLikeKeepsSync(v: Panel, s: Store, photoId: Id, uid: Id, committed: bool)
    requires photoId in s.photos && WellFormed(s)
    requires InSync(v, s.photos[photoId], uid)
    ensures var (t, w) := HandleLike(v, s, photoId, uid, committed);
            photoId in t.photos && WellFormed(t) && InSync(w, t.photos[photoId], uid)
  {
  }

  /** The send button is enabled exactly when no comment is being sent and
      the input holds a character other than white space. */
  function CanSend(v: Panel): (r: bool)
    ensures r <==> !v.loading && exists i :: 0 <= i < |v.newComment| && !IsSpace(v.newComment[i])
  {
    !v.loading && Trim(v.newComment) != []
  }

  /** The delete icon shows on a comment exactly when the viewer wrote it. */
  function ShowDelete(item: CommentView, uid: Id): (r: bool)
    ensures r <==> item.comment.data.userId == uid
  {
    item.comment.data.userId == uid
  }

  /** The delete icon shows exactly for the comments the service lets the
      viewer delete when the backend answers; without the icon, no deletion
      succeeds. */
  lemma ShowDeleteMatchesService(s: Store, item: CommentView, uid: Id)
    requires item.comment.id in s.comments && s.comments[item.comment.id] == item.comment.data
    ensures ShowDelete(item, uid) <==> DeleteComment(s, item.comment.id, uid, true, true).result.Ok?
    ensures !ShowDelete(item, uid) ==>
      forall reachable, accepted :: DeleteComment(s, item.comment.id, uid, reachable, accepted).result.Err?
  {
  }

  /** Typing into the comment input: text beyond `maxLength` is dropped. */
  function EditComment(v: Panel, typed: string): (r: Panel)
    ensures |r.newComment| <= CommentMaxLength
    ensures |r.newComment| <= |typed| && r.newComment == typed[..|r.newComment|]
    ensures |typed| <= CommentMaxLength ==> r.newComment == typed
    ensures r.comments == v.comments && r.loading == v.loading && r.isLiked == v.isLiked
  {
    v.(newComment := Truncate(typed, CommentMaxLength))
  }

  /** `loadComments`: on success the panel shows the photo's comments as
      `getPhotoComments` answers them; a failure keeps the old list. Either
      way the spinner stops. */
  method LoadComments(v: Panel, s: Store, photoId: Id, reachable: bool) returns (r: Panel)
    ensures !r.commentsLoading
    ensures !reachable ==> r.comments == v.comments
    ensures reachable ==> IsCommentList(s, photoId, r.comments)
    ensures r.isLiked == v.isLiked && r.likeCount == v.likeCount && r.newComment == v.newComment && r.loading == v.loading
  {
    r := v.(commentsLoading := true);
    if reachable {
      var fetched := GetPhotoComments(s, photoId);
      r := r.(comments := fetched);
    }
    r := r.(commentsLoading := false);
  }

  /** `handleAddComment`. Blank input is ignored without touching anything.
      Otherwise the trimmed text is sent; on success the input is cleared
      and the comments are reloaded, on failure the input is kept. The send
      spinner is off afterwards. */
  method HandleAddComment(v: Panel, s: Store, photoId: Id, uid: Id, newId: Id, serverNow: int, accepted: bool)
    returns (t: Store, r: Panel)
    requires newId !in s.comments
    ensures Trim(v.newComment) == [] ==> t == s && r == v
    ensures Trim(v.newComment) != [] ==>
      !r.loading && t == AddComment(s, photoId, uid, Trim(v.newComment), newId, serverNow, accepted).store
    ensures Trim(v.newComment) != [] && accepted ==>
      && t.comments.Keys == s.comments.Keys + {newId}
      && t.comments[newId] == Comment(photoId, uid, Trim(v.newComment), serverNow)
      && t.albums == s.albums && t.photos == s.photos && t.users == s.users
      && r.newComment == []
      && IsCommentList(t, photoId, r.comments)
      && exists i :: 0 <= i < |r.comments| && r.comments[i].comment.id == newId
    ensures Trim(v.newComment) != [] && !accepted ==> t == s && r.newComment == v.newComment && r.comments == v.comments
  {
    var text := Trim(v.newComment);
    if text == [] {
      return s, v;
    }
    r := v.(loading := true);
    var reply := AddComment(s, photoId, uid, text, newId, serverNow, accepted);
    t := reply.store;
    if reply.result.Ok? {
      r := r.(newComment := []);
      r := LoadComments(r, t, photoId, true);
    }
    r := r.(loading := false);
  }

  /** `handleDeleteComment` on the panel of photo `photoId`: on success the
      photo's comments are reloaded; a refused or failed deletion changes
      nothing. */
  method HandleDeleteComment(v: Panel, s: Store, photoId: Id, commentId: Id, uid: Id, reachable: bool, accepted: bool)
    returns (t: Store, r: Panel)
    ensures t == DeleteComment(s, commentId, uid, reachable, accepted).store
    ensures DeleteComment(s, commentId, uid, reachable, accepted).result.Err? ==> t == s && r == v
    ensures reachable && accepted && commentId in s.comments && s.comments[commentId].userId == uid ==>
      && t.comments.Keys == s.comments.Keys - {commentId}
      && t.albums == s.albums && t.photos == s.photos && t.users == s.users
      && IsCommentList(t, photoId, r.comments)
      && forall i :: 0 <= i < |r.comments| ==> r.comments[i].comment.id != commentId
  {
    var reply := DeleteComment(s, commentId, uid, reachable, accepted);
    if reply.result.Err? {
      return s, v;
    }
    t := reply.store;
    r := LoadComments(v, t, photoId, true);
  }
}

=== FILE: lists.dfy ===
/** Sequence operations shared by the service and the screens: removing every
    occurrence of a value (`Array.prototype.filter(x => x !== v)`), duplicate
    freedom, ordering by a rank, an insertion sort and sums. */
module Lists {

  /** The number of occurrences of `x` in `s`. */
  function Count<T(==)>(s: seq<T>, x: T): (n: nat)
    ensures n <= |s|
    ensures n == 0 <==> x !in s
  {
    if s == [] then 0 else (if s[0] == x then 1 else 0) + Count(s[1..], x)
  }

  /** Whether `x` occurs an odd number of times in `s`. */
  function OddCount<T(==)>(s: seq<T>, x: T): (b: bool)
    ensures b <==> Count(s, x) % 2 == 1
  {
    if s == [] then false else (s[0] == x) != OddCount(s[1..], x)
  }

  /** `s.filter(y => y !== x)`. */
  function Without<T(==,!new)>(s: seq<T>, x: T): (r: seq<T>)
    ensures x !in r
    ensures |r| <= |s|
    ensures x !in s ==> r == s
  {
    if s == [] then []
    else if s[0] == x then Without(s[1..], x)
    else [s[0]] + Without(s[1..], x)
  }

  /** Filtering keeps every value other than `x`. */
  lemma {:induction false} WithoutKeeps<T(!new)>(s: seq<T>, x: T)
    ensures forall y :: y != x ==> (y in Without(s, x) <==> y in s)
  {
    if s != [] {
      WithoutKeeps(s[1..], x);
      assert s == [s[0]] + s[1..];
    }
  }

  /** Filtering distributes over concatenation: the entries that stay keep
      their relative order. */
  lemma {:induction false} WithoutAppend<T(!new)>(a: seq<T>, b: seq<T>, x: T)
    ensures Without(a + b, x) == Without(a, x) + Without(b, x)
  {
    if a == [] {
      assert a + b == b;
    } else {
      assert (a + b)[1..] == a[1..] + b;
      WithoutAppend(a[1..], b, x);
    }
  }

  predicate NoDup<T(==)>(s: seq<T>) {
    forall i, j :: 0 <= i < j < |s| ==> s[i] != s[j]
  }

  /** On a duplicate-free list, filtering out an entry removes exactly the
      position it sits at. */
  lemma {:induction false} WithoutAt<T(!new)>(s: seq<T>, k: int)
    requires NoDup(s) && 0 <= k < |s|
    ensures Without(s, s[k]) == s[..k] + s[k + 1..]
  {
    NoDupTail(s);
    if k == 0 {
      WithoutHead(s);
    } else {
      var rest := s[1..];
      WithoutAt(rest, k - 1);
      assert s[0] != s[k];
      WithoutStep(s, k);
    }
  }

  lemma NoDupTail<T>(s: seq<T>)
    requires NoDup(s) && s != []
    ensures NoDup(s[1..]) && s[0] !in s[1..]
  {
    var rest := s[1..];
    forall i, j | 0 <= i < j < |rest| ensures rest[i] != rest[j] { assert rest[i] == s[i + 1] && rest[j] == s[j + 1]; }
    forall i | 0 <= i < |rest| ensures rest[i] != s[0] { assert rest[i] == s[i + 1]; }
  }

  lemma WithoutHead<T(!new)>(s: seq<T>)
    requires s != [] && s[0] !in s[1..]
    ensures Without(s, s[0]) == s[..0] + s[1..]
  {
    assert s[..0] + s[1..] == s[1..];
  }

  lemma WithoutStep<T(!new)>(s: seq<T>, k: int)
    requires 0 < k < |s| && s[0] != s[k]
    requires Without(s[1..], s[1..][k - 1]) == s[1..][..k - 1] + s[1..][k..]
    ensures Without(s, s[k]) == s[..k] + s[k + 1..]
  {
    var rest, x := s[1..], s[k];
    assert rest[k - 1] == x;
    var others := s[..k] + s[k + 1..];
    assert others[0] == s[0] && others[1..] == rest[..k - 1] + rest[k..];
    assert others == [s[0]] + others[1..];
  }

  /** Filtering keeps a list duplicate free. */
  lemma {:induction false} WithoutNoDup<T(!new)>(s: seq<T>, x: T)
    requires NoDup(s)
    ensures NoDup(Without(s, x))
  {
    if s != [] {
      WithoutNoDup(s[1..], x);
      WithoutKeeps(s[1..], x);
      assert s[0] !in s[1..];
    }
  }

  /** Non-increasing in `rank`: highest rank first. */
  predicate Ordered<T>(s: seq<T>, rank: T -> int) {
    forall i, j :: 0 <= i < j < |s| ==> rank(s[i]) >= rank(s[j])
  }

  /** Inserts `x` after every entry of at least its rank, so that entries of
      equal rank keep their arrival order. */
  function Insert<T(==,!new)>(x: T, s: seq<T>, rank: T -> int): (r: seq<T>)
    requires Ordered(s, rank)
    ensures Ordered(r, rank)
    ensures multiset(r) == multiset(s) + multiset{x}
    ensures forall y :: y in r <==> y == x || y in s
    ensures NoDup(s) && x !in s ==> NoDup(r)
  {
    if s == [] || rank(s[0]) < rank(x) then
      OrderedCons(x, s, rank);
      [x] + s
    else
      var t := Insert(x, s[1..], rank);
      InsertStep(x, s, t, rank);
      [s[0]] + t
  }

  /** The step case of `Insert`: `s[0]` goes in front of the insertion into
      the rest. */
  lemma InsertStep<T>(x: T, s: seq<T>, t: seq<T>, rank: T -> int)
    requires s != [] && rank(s[0]) >= rank(x) && Ordered(s, rank) && Ordered(t, rank)
    requires multiset(t) == multiset(s[1..]) + multiset{x}
    requires forall y :: y in t <==> y == x || y in s[1..]
    requires NoDup(s[1..]) && x !in s[1..] ==> NoDup(t)
    ensures Ordered([s[0]] + t, rank)
    ensures multiset([s[0]] + t) == multiset(s) + multiset{x}
    ensures forall y :: y in [s[0]] + t <==> y == x || y in s
    ensures NoDup(s) && x !in s ==> NoDup([s[0]] + t)
  {
    assert s == [s[0]] + s[1..];
    forall y | y in t ensures rank(s[0]) >= rank(y) {
      if y != x {
        var j :| 0 <= j < |s[1..]| && s[1..][j] == y;
        assert s[j + 1] == y;
      }
    }
    OrderedCons(s[0], t, rank);
    if NoDup(s) && x !in s {
      assert s[0] !in s[1..];
      NoDupCons(s[0], t);
    }
  }

  lemma NoDupCons<T>(h: T, t: seq<T>)
    requires NoDup(t) && h !in t
    ensures NoDup([h] + t)
  {
    forall i, j | 0 <= i < j < |[h] + t| ensures ([h] + t)[i] != ([h] + t)[j] {
      if i == 0 { assert ([h] + t)[j] == t[j - 1]; }
    }
  }

  lemma OrderedCons<T>(h: T, t: seq<T>, rank: T -> int)
    requires Ordered(t, rank)
    requires forall y :: y in t ==> rank(h) >= rank(y)
    ensures Ordered([h] + t, rank)
  {
    forall i, j | 0 <= i < j < |[h] + t| ensures rank(([h] + t)[i]) >= rank(([h] + t)[j]) {
      if i == 0 { assert ([h] + t)[j] == t[j - 1]; assert t[j - 1] in t; }
    }
  }

  /** An insertion sort, highest rank first. */
  function SortBy<T(==,!new)>(s: seq<T>, rank: T -> int): (r: seq<T>)
    ensures Ordered(r, rank)
    ensures multiset(r) == multiset(s)
    ensures NoDup(s) ==> NoDup(r)
  {
    if s == [] then []
    else
      var init := s[..|s| - 1];
      var last := s[|s| - 1];
      assert s == init + [last];
      var sorted := SortBy(init, rank);
      assert last in init <==> last in multiset(sorted);
      Insert(last, sorted, rank)
  }

  /** Sum of `f` over the list: `s.reduce((t, y) => t + f(y), 0)`. */
  function SumBy<T>(s: seq<T>, f: T -> int): int {
    if s == [] then 0 else f(s[0]) + SumBy(s[1..], f)
  }

  /** A sum does not depend on the order of its terms. */
  lemma {:induction false} SumByPermutation<T>(s: seq<T>, t: seq<T>, f: T -> int)
    requires multiset(s) == multiset(t)
    ensures SumBy(s, f) == SumBy(t, f)
  {
    if s != [] {
      var x := s[0];
      assert s == [x] + s[1..];
      assert x in multiset(t);
      var k :| 0 <= k < |t| && t[k] == x;
      RemoveAt(t, k);
      SumByPermutation(s[1..], t[..k] + t[k + 1..], f);
      SumByRemove(t, k, f);
    }
  }

  /** Taking out the entry at `k` takes one copy of it out of the multiset. */
  lemma RemoveAt<T>(t: seq<T>, k: int)
    requires 0 <= k < |t|
    ensures multiset(t[..k] + t[k + 1..]) == multiset(t) - multiset{t[k]}
  {
    assert t == t[..k] + [t[k]] + t[k + 1..];
  }

  /** The sum is the entry at `k` plus the sum of the others. */
  lemma {:induction false} SumByRemove<T>(t: seq<T>, k: int, f: T -> int)
    requires 0 <= k < |t|
    ensures SumBy(t, f) == SumBy(t[..k] + t[k + 1..], f) + f(t[k])
  {
    if k == 0 {
      assert t[..0] + t[1..] == t[1..];
    } else {
      var rest := t[1..];
      SumByRemove(rest, k - 1, f);
      assert rest[k - 1] == t[k];
      var others := t[..k] + t[k + 1..];
      assert others[0] == t[0] && others[1..] == rest[..k - 1] + rest[k..];
    }
  }

  /** Concatenation of duplicate-free lists with no common entry. */
  lemma ConcatNoDup<T>(a: seq<T>, b: seq<T>)
    requires NoDup(a) && NoDup(b)
    requires forall x :: x in a ==> x !in b
    ensures NoDup(a + b)
  {
    forall i, j | 0 <= i < j < |a + b| ensures (a + b)[i] != (a + b)[j] {
      if j >= |a| && i < |a| {
        assert (a + b)[i] in a && (a + b)[j] in b;
      }
    }
  }
}

=== FILE: profile.dfy ===
/** The profile screen (`ProfileScreen`): the signed-in user's albums, the
    photos of those albums newest first, the three stats and the header's
    fallbacks for a user without a display name. */
module ProfileScreen {
  import opened Results
  import opened Text
  import opened Lists
  import opened Service
  import Session

  datatype View = View(albums: seq<Doc<Album>>, userPhotos: seq<Doc<Photo>>, loading: bool, refreshing: bool)

  /** A photo the screen lists for `uid`: a stored photo of one of the user's
      albums whose photo fetch did not fail. */
  ghost predicate Shown(s: Store, uid: Id, fetchFails: set<Id>, d: Doc<Photo>) {
    && d.id in s.photos && s.photos[d.id] == d.data
    && d.data.albumId in s.albums && s.albums[d.data.albumId].userId == uid
    && d.data.albumId !in fetchFails
  }

  /** `loadUserData`. When listing the albums throws, the alert is shown and
      both lists stay as they were. Otherwise the albums are the user's,
      newest first, and the photos are gathered album by album, an album
      whose fetch (`fetchFails`) throws contributing nothing, then sorted
      newest first. Either way both spinners stop. */
  method LoadUserData(v: View, s: Store, uid: Id, listOk: bool, fetchFails: set<Id>) returns (r: View)
    ensures !r.loading && !r.refreshing
    ensures !listOk ==> r.albums == v.albums && r.userPhotos == v.userPhotos
    ensures listOk ==> IsUserAlbums(s, uid, r.albums)
    ensures listOk ==> forall d :: d in r.userPhotos <==> Shown(s, uid, fetchFails, d)
    ensures listOk ==> NoDup(r.userPhotos)
    ensures listOk ==> forall i, j :: 0 <= i < j < |r.userPhotos| ==>
      r.userPhotos[i].data.createdAt >= r.userPhotos[j].data.createdAt
  {
    r := v.(loading := true);
    if !listOk {
      r := r.(loading := false, refreshing := false);
      return;
    }
    var userAlbums := GetUserAlbums(s, uid);
    QueryIdsDistinct(s.albums, (a: Album) => a.userId == uid, AlbumNewest, userAlbums);
    r := r.(albums := userAlbums);
    var all: seq<Doc<Photo>> := [];
    ghost var done: set<Id> := {};
    for i := 0 to |userAlbums|
      invariant forall a :: a in done <==> a !in fetchFails && exists j :: 0 <= j < i && userAlbums[j].id == a
      invariant forall d :: d in all <==> d.id in s.photos && s.photos[d.id] == d.data && d.data.albumId in done
      invariant NoDup(all)
    {
      var album := userAlbums[i];
      if album.id !in fetchFails {
        var photos := GetAlbumPhotos(s, album.id);
        assert album.id !in done by {
          forall j | 0 <= j < i ensures userAlbums[j].id != album.id { }
        }
        ConcatNoDup(all, photos);
        all := all + photos;
        done := done + {album.id};
      }
    }
    forall d ensures d in all <==> Shown(s, uid, fetchFails, d) {
      if d.data.albumId in s.albums && s.albums[d.data.albumId].userId == uid {
        assert Doc(d.data.albumId, s.albums[d.data.albumId]) in userAlbums;
      }
    }
    var sorted := SortNewest(all);
    r := r.(userPhotos := sorted, loading := false, refreshing := false);
  }

  /** The photo list sorted by creation time, newest first: the same photos,
      reordered. */
  function SortNewest(photos: seq<Doc<Photo>>): (r: seq<Doc<Photo>>)
    ensures multiset(r) == multiset(photos)
    ensures forall d :: d in r <==> d in photos
    ensures NoDup(photos) ==> NoDup(r)
    ensures forall i, j :: 0 <= i < j < |r| ==> r[i].data.createdAt >= r[j].data.createdAt
  {
    var r := SortBy(photos, PhotoNewest);
    assert forall d :: d in r <==> d in multiset(photos);
    r
  }

  /** Pull to refresh: the refresh spinner turns on, then the data reloads,
      after which it is off again. */
  method HandleRefresh(v: View, s: Store, uid: Id, listOk: bool, fetchFails: set<Id>) returns (r: View)
    ensures !r.loading && !r.refreshing
    ensures !listOk ==> r.albums == v.albums && r.userPhotos == v.userPhotos
    ensures listOk ==> IsUserAlbums(s, uid, r.albums)
    ensures listOk ==> forall d :: d in r.userPhotos <==> Shown(s, uid, fetchFails, d)
    ensures listOk ==> NoDup(r.userPhotos)
    ensures listOk ==> forall i, j :: 0 <= i < j < |r.userPhotos| ==>
      r.userPhotos[i].data.createdAt >= r.userPhotos[j].data.createdAt
  {
    r := v.(refreshing := true);
    r := LoadUserData(r, s, uid, listOk, fetchFails);
  }

  /** The Likes stat: the sum of the photos' like counts, a missing count
      adding 0. */
  function TotalLikes(photos: seq<Doc<Photo>>): int {
    SumBy(photos, (d: Doc<Photo>) => d.data.likeCount.UnwrapOr(0))
  }

  /** The like total does not depend on the order of the photos. */
  lemma TotalLikesOrderFree(photos: seq<Doc<Photo>>, other: seq<Doc<Photo>>)
    requires multiset(photos) == multiset(other)
    ensures TotalLikes(photos) == TotalLikes(other)
  {
    SumByPermutation(photos, other, (d: Doc<Photo>) => d.data.likeCount.UnwrapOr(0));
  }

  /** The number of likes each photo records in its like list. */
  function LikeListTotal(photos: seq<Doc<Photo>>): (n: nat) {
    if photos == [] then 0 else |Likes(photos[0].data)| + LikeListTotal(photos[1..])
  }

  /** On photos whose counts mirror their like lists, the Likes stat counts
      the entries of those lists. */
  lemma {:induction false} TotalLikesCountsLikeLists(photos: seq<Doc<Photo>>)
    requires forall i :: 0 <= i < |photos| ==> CountMirrorsLikes(photos[i].data)
    ensures TotalLikes(photos) == LikeListTotal(photos)
  {
    if photos != [] {
      TotalLikesCountsLikeLists(photos[1..]);
    }
  }

  /** The three stats: albums, photos and likes. */
  function Stats(v: View): (r: (nat, nat, int))
    ensures r.0 == |v.albums| && r.1 == |v.userPhotos|
    ensures r.2 == TotalLikes(v.userPhotos)
  {
    (|v.albums|, |v.userPhotos|, TotalLikes(v.userPhotos))
  }

  /** Over photos read from a well-formed store, as a load lists them, the
      Likes stat is the number of likes recorded on the listed photos, and it
      is never negative. */
  lemma LoadedLikesStat(s: Store, v: View)
    requires WellFormed(s)
    requires forall i :: 0 <= i < |v.userPhotos| ==>
      v.userPhotos[i].id in s.photos && s.photos[v.userPhotos[i].id] == v.userPhotos[i].data
    ensures Stats(v).2 == LikeListTotal(v.userPhotos) >= 0
  {
    TotalLikesCountsLikeLists(v.userPhotos);
  }

  /** A user field as JavaScript's `||` sees it: a non-empty string, or the
      empty string for an absent, null or empty field. */
  function Field(user: Option<Session.Record>, key: string): (r: string)
    ensures r != [] ==> user.Some? && key in user.value && user.value[key] == Session.Text(r)
    ensures user.Some? && key in user.value && user.value[key].Text? ==> r == user.value[key].s
  {
    if user.Some? && key in user.value && user.value[key].Text? then user.value[key].s else []
  }

  /** The avatar letter: the upper-cased first character of the display
      name, else of the email, else `U`. */
  function AvatarInitial(user: Option<Session.Record>): (c: char)
    ensures Field(user, "displayName") != [] ==> c == ToUpper(Field(user, "displayName")[0])
    ensures Field(user, "displayName") == [] && Field(user, "email") != [] ==> c == ToUpper(Field(user, "email")[0])
    ensures Field(user, "displayName") == [] && Field(user, "email") == [] ==> c == 'U'
  {
    var name := Field(user, "displayName");
    var email := Field(user, "email");
    if name != [] then ToUpper(name[0])
    else if email != [] then ToUpper(email[0])
    else 'U'
  }

  /** The name line: the display name, else the email before its first `@`,
      else `User`. */
  function DisplayName(user: Option<Session.Record>): (r: string)
    ensures r != []
    ensures Field(user, "displayName") != [] ==> r == Field(user, "displayName")
    ensures Field(user, "displayName") == [] && BeforeFirst(Field(user, "email"), '@') != [] ==>
      && '@' !in r && |r| <= |Field(user, "email")| && r == Field(user, "email")[..|r|]
      && (|r| == |Field(user, "email")| || Field(user, "email")[|r|] == '@')
    ensures Field(user, "displayName") == [] && BeforeFirst(Field(user, "email"), '@') == [] ==> r == "User"
  {
    var name := Field(user, "displayName");
    var local := BeforeFirst(Field(user, "email"), '@');
    if name != [] then name
    else if local != [] then local
    else "User"
  }

  /** The avatar shows the initial of the name line, except for a user with
      no display name whose email starts with `@`: the name line falls back
      to `User` while the avatar shows `@`. */
  lemma AvatarMatchesName(user: Option<Session.Record>)
    ensures AvatarInitial(user) == ToUpper(DisplayName(user)[0]) <==>
      !(Field(user, "displayName") == [] && Field(user, "email") != [] && Field(user, "email")[0] == '@')
  {
    var email := Field(user, "email");
    if Field(user, "displayName") == [] && email != [] && email[0] != '@' {
      assert BeforeFirst(email, '@')[0] == email[0];
    }
  }
}

=== FILE: results.dfy ===
/** Optional values and success-or-error results, used for every fallible
    backend call and for the JavaScript "maybe absent" document fields. */
module Results {

  /** A field or document that may be absent (`undefined` / `null`). */
  datatype Option<T> = None | Some(value: T) {

    /** The value, or `default` when absent: the `x || default` idiom. */
    function UnwrapOr(default: T): T {
      match this
      case Some(v) => v
      case None => default
    }
  }

  /** The outcome of a call that either returns a value or throws an error. */
  datatype Result<T, E> = Ok(value: T) | Err(error: E)
}

=== FILE: service.dfy ===
/** The backend access layer (`FirebaseService`): the document store as four
    maps from document id to record, and every service call as one atomic
    step on them. A call answers with the store after the step and either its
    value or the error it throws; a failed call leaves the store as it was.

    Environment inputs are parameters: the id the document store generates
    for `add` (`newId`), the server clock (`serverNow`), whether the backend
    accepts a write (`accepted`) and whether an object-storage deletion
    succeeds (`storageDeleted`). */
module Service {
  import opened Results
  import opened Lists

  type Id = string

  /** An album document. `coverImage` is never written by this client. */
  datatype Album = Album(
    title: string,
    description: string,
    userId: Id,
    photoCount: int,
    coverImage: Option<string>,
    createdAt: int,
    updatedAt: int)

  /** The fields a caller hands to `createAlbum`. */
  datatype AlbumData = AlbumData(title: string, description: string, userId: Id, photoCount: int)

  datatype Metadata = Metadata(originalName: Option<string>, size: Option<int>)

  /** The fields a caller hands to `addPhoto`. */
  datatype PhotoData = PhotoData(
    albumId: Id,
    userId: Id,
    imageUrl: string,
    thumbnailUrl: string,
    metadata: Metadata)

  /** A photo document. `likes` and `likeCount` may be absent in a document
      this client did not write. */
  datatype Photo = Photo(
    albumId: Id,
    userId: Id,
    imageUrl: string,
    thumbnailUrl: string,
    metadata: Metadata,
    createdAt: int,
    likes: Option<seq<Id>>,
    likeCount: Option<int>)

  datatype Comment = Comment(photoId: Id, userId: Id, text: string, createdAt: int)

  /** A `users/{uid}` profile document. */
  datatype Profile = Profile(username: string, email: string, createdAt: int)

  datatype Store = Store(
    albums: map<Id, Album>,
    photos: map<Id, Photo>,
    comments: map<Id, Comment>,
    users: map<Id, Profile>)

  /** A document as the service returns it: `{id: doc.id, ...doc.data()}`. */
  datatype Doc<T> = Doc(id: Id, data: T)

  datatype Reason =
    | AlbumNotFound
    | PhotoNotFound
    | CommentNotFound
    | UserNotFound
    | NotOwner
    | Rejected

  /** A thrown error: the service's `Failed to ...` wrapper, if any, around
      the underlying reason. */
  datatype Error = Error(context: Option<string>, reason: Reason)

  /** The store after a call, and what the call returned or threw. */
  datatype Reply<T> = Reply(store: Store, result: Result<T, Error>)

  function Lookup<T>(m: map<Id, T>, id: Id): (r: Option<T>)
    ensures r.Some? <==> id in m
    ensures r.Some? ==> r.value == m[id]
  {
    if id in m then Some(m[id]) else None
  }

  // ---------------------------------------------------------------------
  // Store invariant: the denormalised like count mirrors the like list.

  /** The like list, a missing field read as the empty list. */
  function Likes(p: Photo): seq<Id> {
    p.likes.UnwrapOr([])
  }

  predicate CountMirrorsLikes(p: Photo) {
    p.likes.Some? && p.likeCount == Some(|p.likes.value|)
  }

  /** Every photo carries a duplicate-free like list and a count equal to its
      length. */
  predicate WellFormed(s: Store) {
    forall id :: id in s.photos ==> CountMirrorsLikes(s.photos[id]) && NoDup(Likes(s.photos[id]))
  }

  // ---------------------------------------------------------------------
  // Queries: `where(...).orderBy(...)` over one collection.

  /** `r` is a query answer over `m`: exactly the documents whose data
      satisfies `keep`, each once, highest `rank` first. */
  ghost predicate IsQuery<T(!new)>(m: map<Id, T>, keep: T -> bool, rank: Doc<T> -> int, r: seq<Doc<T>>) {
    && (forall d :: d in r <==> d.id in m && m[d.id] == d.data && keep(d.data))
    && |r| == |Matching(m, keep)|
    && NoDup(r)
    && Ordered(r, rank)
  }

  /** The ids of the documents a filter selects. */
  ghost function Matching<T(!new)>(m: map<Id, T>, keep: T -> bool): set<Id> {
    set id | id in m && keep(m[id])
  }

  /** Runs a filtered, ordered query. Documents of equal rank come back in
      an unspecified order. */
  method Query<T(==,!new)>(m: map<Id, T>, keep: T -> bool, rank: Doc<T> -> int) returns (r: seq<Doc<T>>)
    ensures IsQuery(m, keep, rank, r)
  {
    r := [];
    var rest := m.Keys;
    while rest != {}
      invariant rest <= m.Keys
      invariant forall d :: d in r <==> d.id in m && d.id !in rest && m[d.id] == d.data && keep(d.data)
      invariant NoDup(r) && Ordered(r, rank)
      invariant |r| == |set id | id in m && id !in rest && keep(m[id])|
      decreases |rest|
    {
      var k :| k in rest;
      ghost var before := r;
      ghost var seen := set id | id in m && id !in rest && keep(m[id]);
      if keep(m[k]) {
        r := Insert(Doc(k, m[k]), r, rank);
        assert |r| == |multiset(r)| == |multiset(before)| + 1;
        assert (set id | id in m && id !in rest - {k} && keep(m[id])) == seen + {k};
      } else {
        assert (set id | id in m && id !in rest - {k} && keep(m[id])) == seen;
      }
      rest := rest - {k};
    }
    assert (set id | id in m && id !in rest && keep(m[id])) == Matching(m, keep);
  }

  /** In a query answer no id appears twice. */
  lemma QueryIdsDistinct<T(!new)>(m: map<Id, T>, keep: T -> bool, rank: Doc<T> -> int, r: seq<Doc<T>>)
    requires IsQuery(m, keep, rank, r)
    ensures forall i, j :: 0 <= i < j < |r| ==> r[i].id != r[j].id
  {
    forall i, j | 0 <= i < j < |r| ensures r[i].id != r[j].id {
      assert r[i] in r && r[j] in r;
    }
  }

  function AlbumNewest(d: Doc<Album>): int { d.data.createdAt }
  function PhotoNewest(d: Doc<Photo>): int { d.data.createdAt }
  function PhotoOldest(d: Doc<Photo>): int { -d.data.createdAt }
  function CommentOldest(d: Doc<Comment>): int { -d.data.createdAt }

  ghost predicate IsUserAlbums(s: Store, userId: Id, r: seq<Doc<Album>>) {
    IsQuery(s.albums, (a: Album) => a.userId == userId, AlbumNewest, r)
  }

  ghost predicate IsAlbumPhotos(s: Store, albumId: Id, r: seq<Doc<Photo>>) {
    IsQuery(s.photos, (p: Photo) => p.albumId == albumId, PhotoOldest, r)
  }

  // ---------------------------------------------------------------------
  // Albums

  /** Every collection except `albums` is untouched, and so is every album
      other than `id`. */
  ghost predicate OnlyAlbumChanged(s: Store, t: Store, id: Id) {
    && t.photos == s.photos && t.comments == s.comments && t.users == s.users
    && t.albums.Keys - {id} == s.albums.Keys - {id}
    && forall a :: a in s.albums && a != id ==> a in t.albums && t.albums[a] == s.albums[a]
  }

  /** `createAlbum`: writes the caller's fields plus server timestamps under
      a fresh id and returns the id. */
  function CreateAlbum(s: Store, data: AlbumData, newId: Id, serverNow: int, accepted: bool): (r: Reply<Id>)
    requires newId !in s.albums
    ensures r.result.Ok? <==> accepted
    ensures accepted ==>
      && r.result.value == newId
      && newId in r.store.albums
      && r.store.albums[newId].title == data.title
      && r.store.albums[newId].description == data.description
      && r.store.albums[newId].userId == data.userId
      && r.store.albums[newId].photoCount == data.photoCount
      && r.store.albums[newId].createdAt == serverNow
      && r.store.albums[newId].updatedAt == serverNow
      && OnlyAlbumChanged(s, r.store, newId)
    ensures !accepted ==> r.store == s && r.result.error == Error(Some("Failed to create album"), Rejected)
    ensures WellFormed(s) ==> WellFormed(r.store)
  {
    if accepted then
      var album := Album(data.title, data.description, data.userId, data.photoCount, None, serverNow, serverNow);
      Reply(s.(albums := s.albums[newId := album]), Ok(newId))
    else
      Reply(s, Err(Error(Some("Failed to create album"), Rejected)))
  }

  /** `getAlbum`: the album with its id, or "Album not found". */
  function GetAlbum(s: Store, id: Id, reachable: bool): (r: Result<Doc<Album>, Error>)
    ensures r.Ok? <==> reachable && id in s.albums
    ensures r.Ok? ==> r.value == Doc(id, s.albums[id])
    ensures !reachable ==> r.error == Error(Some("Failed to get album"), Rejected)
    ensures reachable && id !in s.albums ==> r.error == Error(Some("Failed to get album"), AlbumNotFound)
  {
    if !reachable then Err(Error(Some("Failed to get album"), Rejected))
    else
      match Lookup(s.albums, id)
      case Some(a) => Ok(Doc(id, a))
      case None => Err(Error(Some("Failed to get album"), AlbumNotFound))
  }

  /** `getUserAlbums`: exactly the albums owned by `userId`, newest first. */
  method GetUserAlbums(s: Store, userId: Id) returns (r: seq<Doc<Album>>)
    ensures forall d :: d in r <==> d.id in s.albums && s.albums[d.id] == d.data && d.data.userId == userId
    ensures NoDup(r)
    ensures forall i, j :: 0 <= i < j < |r| ==> r[i].data.createdAt >= r[j].data.createdAt
    ensures IsUserAlbums(s, userId, r)
  {
    r := Query(s.albums, (a: Album) => a.userId == userId, AlbumNewest);
  }

  /** The photos `deleteAlbum` removes: those whose `albumId` is the album. */
  function PhotosOf(s: Store, albumId: Id): (ids: set<Id>)
    ensures forall id :: id in ids <==> id in s.photos && s.photos[id].albumId == albumId
  {
    set id | id in s.photos && s.photos[id].albumId == albumId
  }

  /** `deleteAlbum`: in one batch, removes the album and every photo whose
      `albumId` is the album. Before the commit, each removed photo's image is
      deleted from object storage; a failed storage deletion is logged and
      never aborts the batch. The answer is the set of image URLs whose
      storage deletion failed; the service itself only logs each failure and
      resolves with no value. Object storage is not part of the store, so an
      uncommitted delete leaves the documents unchanged while images already
      removed from storage stay removed. A missing album is not an error. */
  function DeleteAlbum(s: Store, albumId: Id, storageDeleted: string -> bool, commitOk: bool): (r: Reply<set<string>>)
    ensures r.result.Ok? <==> commitOk
    ensures commitOk ==>
      && albumId !in r.store.albums
      && (forall a :: a in r.store.albums <==> a in s.albums && a != albumId)
      && (forall a :: a in r.store.albums ==> r.store.albums[a] == s.albums[a])
      && (forall id :: id in r.store.photos <==> id in s.photos && s.photos[id].albumId != albumId)
      && (forall id :: id in r.store.photos ==> r.store.photos[id] == s.photos[id])
      && r.store.comments == s.comments && r.store.users == s.users
      && (forall u :: u in r.result.value <==>
            exists id :: id in s.photos && s.photos[id].albumId == albumId
                         && s.photos[id].imageUrl == u && !storageDeleted(u))
    ensures !commitOk ==> r.store == s && r.result.error == Error(Some("Failed to delete album"), Rejected)
    ensures WellFormed(s) ==> WellFormed(r.store)
  {
    var doomed := PhotosOf(s, albumId);
    var failedUrls := set id | id in doomed && !storageDeleted(s.photos[id].imageUrl) :: s.photos[id].imageUrl;
    if commitOk then
      Reply(s.(albums := s.albums - {albumId}, photos := s.photos - doomed), Ok(failedUrls))
    else
      Reply(s, Err(Error(Some("Failed to delete album"), Rejected)))
  }

  /** After a committed `deleteAlbum`, `getAlbum` fails with "Album not
      found" and `getAlbumPhotos` answers the empty list. */
  lemma DeleteAlbumThenRead(s: Store, albumId: Id, storageDeleted: string -> bool, photos: seq<Doc<Photo>>)
    requires IsAlbumPhotos(DeleteAlbum(s, albumId, storageDeleted, true).store, albumId, photos)
    ensures GetAlbum(DeleteAlbum(s, albumId, storageDeleted, true).store, albumId, true).error.reason == AlbumNotFound
    ensures photos == []
  {
    var t := DeleteAlbum(s, albumId, storageDeleted, true).store;
    assert Matching(t.photos, (p: Photo) => p.albumId == albumId) == {};
  }

  // ---------------------------------------------------------------------
  // Photos

  /** `addPhoto`: writes the caller's fields with a server timestamp, an
      empty like list and a zero like count. */
  function AddPhoto(s: Store, data: PhotoData, newId: Id, serverNow: int, accepted: bool): (r: Reply<Id>)
    requires newId !in s.photos
    ensures r.result.Ok? <==> accepted
    ensures accepted ==>
      && r.result.value == newId
      && r.store.photos.Keys == s.photos.Keys + {newId}
      && (forall id :: id in s.photos ==> r.store.photos[id] == s.photos[id])
      && r.store.albums == s.albums && r.store.comments == s.comments && r.store.users == s.users
      && var p := r.store.photos[newId];
         && p.albumId == data.albumId && p.userId == data.userId
         && p.imageUrl == data.imageUrl && p.thumbnailUrl == data.thumbnailUrl
         && p.metadata == data.metadata && p.createdAt == serverNow
         && Likes(p) == [] && CountMirrorsLikes(p)
    ensures !accepted ==> r.store == s && r.result.error == Error(Some("Failed to add photo"), Rejected)
    ensures WellFormed(s) ==> WellFormed(r.store)
  {
    if accepted then
      var photo := Photo(data.albumId, data.userId, data.imageUrl, data.thumbnailUrl, data.metadata,
                         serverNow, Some([]), Some(0));
      Reply(s.(photos := s.photos[newId := photo]), Ok(newId))
    else
      Reply(s, Err(Error(Some("Failed to add photo"), Rejected)))
  }

  /** `getAlbumPhotos`: exactly the photos of the album, oldest first. */
  method GetAlbumPhotos(s: Store, albumId: Id) returns (r: seq<Doc<Photo>>)
    ensures forall d :: d in r <==> d.id in s.photos && s.photos[d.id] == d.data && d.data.albumId == albumId
    ensures NoDup(r)
    ensures forall i, j :: 0 <= i < j < |r| ==> r[i].data.createdAt <= r[j].data.createdAt
    ensures IsAlbumPhotos(s, albumId, r)
  {
    r := Query(s.photos, (p: Photo) => p.albumId == albumId, PhotoOldest);
  }

  /** `deletePhoto`: removes the photo document (a missing one is not an
      error); a refused delete throws "Failed to delete photo" and writes
      nothing. The storage deletion that follows may fail without effect. */
  function DeletePhoto(s: Store, photoId: Id, accepted: bool): (r: Reply<()>)
    ensures r.result.Ok? <==> accepted
    ensures !accepted ==> r.store == s && r.result.error == Error(Some("Failed to delete photo"), Rejected)
    ensures accepted ==> photoId !in r.store.photos
    ensures forall id :: id != photoId ==> (id in r.store.photos <==> id in s.photos)
    ensures forall id :: id in r.store.photos ==> r.store.photos[id] == s.photos[id]
    ensures r.store.albums == s.albums && r.store.comments == s.comments && r.store.users == s.users
    ensures WellFormed(s) ==> WellFormed(r.store)
  {
    if accepted then Reply(s.(photos := s.photos - {photoId}), Ok(()))
    else Reply(s, Err(Error(Some("Failed to delete photo"), Rejected)))
  }

  // ---------------------------------------------------------------------
  // Likes

  /** The like list after one toggle by `userId`: every occurrence removed
      when present, appended at the end when absent. */
  function ToggleList(likes: seq<Id>, userId: Id): (r: seq<Id>)
    ensures userId in r <==> userId !in likes
    ensures forall v :: v != userId ==> (v in r <==> v in likes)
    ensures userId !in likes ==> r == likes + [userId]
    ensures userId in likes ==> r == Without(likes, userId)
    ensures userId in likes && NoDup(likes) ==>
      exists k :: 0 <= k < |likes| && likes[k] == userId && r == likes[..k] + likes[k + 1..]
    ensures NoDup(likes) ==> NoDup(r)
  {
    if userId in likes then
      WithoutNoDupIf(likes, userId);
      WithoutKeeps(likes, userId);
      WithoutCut(likes, userId);
      Without(likes, userId)
    else
      likes + [userId]
  }

  /** On a duplicate-free list, filtering out a present value cuts it out
      at its one position. */
  lemma WithoutCut(likes: seq<Id>, x: Id)
    requires x in likes
    ensures NoDup(likes) ==>
      exists k :: 0 <= k < |likes| && likes[k] == x && Without(likes, x) == likes[..k] + likes[k + 1..]
  {
    if NoDup(likes) {
      var k :| 0 <= k < |likes| && likes[k] == x;
      WithoutAt(likes, k);
    }
  }

  lemma WithoutNoDupIf(s: seq<Id>, x: Id)
    ensures NoDup(s) ==> NoDup(Without(s, x))
  {
    if NoDup(s) { WithoutNoDup(s, x); }
  }

  /** `toggleLike`: one atomic read-modify-write of the photo's like list
      and count; answers the new membership. `committed` is whether the
      backend commits the transaction. The transaction's promise is returned
      without `await`, so the service's wrapper never sees its errors: a
      missing photo's "Photo not found" and a refused commit both surface
      unwrapped. */
  function ToggleLike(s: Store, photoId: Id, userId: Id, committed: bool): (r: Reply<bool>)
    ensures r.result.Err? <==> photoId !in s.photos || !committed
    ensures r.result.Err? ==> r.store == s
    ensures photoId !in s.photos ==> r.result.error == Error(None, PhotoNotFound)
    ensures photoId in s.photos && !committed ==> r.result.error == Error(None, Rejected)
    ensures r.result.Ok? ==> photoId in r.store.photos
    ensures r.result.Ok? && photoId in r.store.photos ==>
      var before := s.photos[photoId];
      var after := r.store.photos[photoId];
      && r.result.value == (userId !in Likes(before))
      && (userId in Likes(after) <==> r.result.value)
      && (forall v :: v != userId ==> (v in Likes(after) <==> v in Likes(before)))
      && after.likes == Some(ToggleList(Likes(before), userId))
      && CountMirrorsLikes(after)
      && after == before.(likes := after.likes, likeCount := after.likeCount)
      && r.store == s.(photos := s.photos[photoId := after])
    ensures WellFormed(s) ==> WellFormed(r.store)
  {
    match Lookup(s.photos, photoId)
    case None => Reply(s, Err(Error(None, PhotoNotFound)))
    case Some(p) =>
      if !committed then Reply(s, Err(Error(None, Rejected)))
      else
        var likes := Likes(p);
        var isLiked := userId in likes;
        var newLikes := ToggleList(likes, userId);
        Reply(s.(photos := s.photos[photoId := p.(likes := Some(newLikes), likeCount := Some(|newLikes|))]),
              Ok(!isLiked))
  }

  /** Two successive toggles by one user on a duplicate-free list answer
      opposite values and restore membership and count; when the user had
      not liked the photo, the list itself is restored. */
  lemma ToggleLikeTwice(s: Store, photoId: Id, userId: Id)
    requires photoId in s.photos && NoDup(Likes(s.photos[photoId]))
    ensures var r1 := ToggleLike(s, photoId, userId, true);
            var r2 := ToggleLike(r1.store, photoId, userId, true);
            var before := Likes(s.photos[photoId]);
            var after := Likes(r2.store.photos[photoId]);
            && r1.result.Ok? && r2.result.Ok?
            && r2.result.value == !r1.result.value
            && (forall v :: v in after <==> v in before)
            && |after| == |before|
            && r2.store.photos[photoId].likeCount == Some(|before|)
            && (userId !in before ==> after == before)
  {
    var before := Likes(s.photos[photoId]);
    if userId !in before {
      assert Without(before + [userId], userId) == before by {
        WithoutAppend(before, [userId], userId);
        assert Without([userId], userId) == [] by { assert [userId][1..] == []; }
        assert before + [] == before;
      }
    }
  }

  /** The like list after a run of toggles, one per entry of `users`. */
  function ToggleAll(likes: seq<Id>, users: seq<Id>): (r: seq<Id>)
    ensures NoDup(likes) ==> NoDup(r)
    decreases |users|
  {
    if users == [] then likes else ToggleAll(ToggleList(likes, users[0]), users[1..])
  }

  /** After any run of toggles, a user has liked the photo exactly when they
      had before and toggled an even number of times, or had not and toggled
      an odd number of times: no toggle is lost. */
  lemma {:induction false} ToggleAllParity(likes: seq<Id>, users: seq<Id>, v: Id)
    ensures v in ToggleAll(likes, users) <==> ((v in likes) != OddCount(users, v))
    decreases |users|
  {
    if users != [] {
      var next := ToggleList(likes, users[0]);
      assert ToggleAll(likes, users) == ToggleAll(next, users[1..]);
      ToggleAllParity(next, users[1..], v);
    }
  }

  // ---------------------------------------------------------------------
  // Comments

  /** `addComment`: writes the comment with a server timestamp. The photo is
      not checked to exist. */
  function AddComment(s: Store, photoId: Id, userId: Id, text: string, newId: Id, serverNow: int, accepted: bool): (r: Reply<Id>)
    requires newId !in s.comments
    ensures r.result.Ok? <==> accepted
    ensures accepted ==>
      && r.result.value == newId
      && r.store.comments.Keys == s.comments.Keys + {newId}
      && r.store.comments[newId] == Comment(photoId, userId, text, serverNow)
      && (forall c :: c in s.comments ==> r.store.comments[c] == s.comments[c])
      && r.store.albums == s.albums && r.store.photos == s.photos && r.store.users == s.users
    ensures !accepted ==> r.store == s && r.result.error == Error(Some("Failed to add comment"), Rejected)
  {
    if accepted then
      Reply(s.(comments := s.comments[newId := Comment(photoId, userId, text, serverNow)]), Ok(newId))
    else
      Reply(s, Err(Error(Some("Failed to add comment"), Rejected)))
  }

  /** A comment joined with its author's profile (`user` is absent when the
      profile document is). */
  datatype CommentView = CommentView(comment: Doc<Comment>, user: Option<Profile>)

  /** `r` answers `getPhotoComments(photoId)`: every stored comment on the
      photo and nothing else, each once, oldest first, each joined with the
      lookup of its author's profile. */
  ghost predicate IsCommentList(s: Store, photoId: Id, r: seq<CommentView>) {
    && (forall i :: 0 <= i < |r| ==>
          && r[i].comment.id in s.comments && s.comments[r[i].comment.id] == r[i].comment.data
          && r[i].comment.data.photoId == photoId
          && r[i].user == Lookup(s.users, r[i].comment.data.userId))
    && (forall c :: c in s.comments && s.comments[c].photoId == photoId ==>
          exists i :: 0 <= i < |r| && r[i].comment.id == c)
    && (forall i, j :: 0 <= i < j < |r| ==> r[i].comment.id != r[j].comment.id)
    && (forall i, j :: 0 <= i < j < |r| ==> r[i].comment.data.createdAt <= r[j].comment.data.createdAt)
  }

  /** `getPhotoComments`: exactly the comments on the photo, oldest first,
      each joined with one lookup of its author's profile. */
  method GetPhotoComments(s: Store, photoId: Id) returns (r: seq<CommentView>)
    ensures IsCommentList(s, photoId, r)
  {
    var docs := Query(s.comments, (c: Comment) => c.photoId == photoId, CommentOldest);
    QueryIdsDistinct(s.comments, (c: Comment) => c.photoId == photoId, CommentOldest, docs);
    r := seq(|docs|, i requires 0 <= i < |docs| => CommentView(docs[i], Lookup(s.users, docs[i].data.userId)));
    forall c | c in s.comments && s.comments[c].photoId == photoId
      ensures exists i :: 0 <= i < |r| && r[i].comment.id == c
    {
      assert Doc(c, s.comments[c]) in docs;
      var i :| 0 <= i < |docs| && docs[i] == Doc(c, s.comments[c]);
      assert r[i].comment.id == c;
    }
  }

  /** `deleteComment`: only the comment's author may delete it. `reachable`
      is whether the comment read succeeds and `accepted` whether the delete
      is; every failure carries the "Failed to delete comment" wrapper. */
  function DeleteComment(s: Store, commentId: Id, userId: Id, reachable: bool, accepted: bool): (r: Reply<()>)
    ensures r.result.Ok? <==>
      reachable && accepted && commentId in s.comments && s.comments[commentId].userId == userId
    ensures !reachable ==> r.result.error == Error(Some("Failed to delete comment"), Rejected)
    ensures reachable && commentId !in s.comments ==>
      r.result.error == Error(Some("Failed to delete comment"), CommentNotFound)
    ensures reachable && commentId in s.comments && s.comments[commentId].userId != userId ==>
      r.result.error == Error(Some("Failed to delete comment"), NotOwner)
    ensures reachable && commentId in s.comments && s.comments[commentId].userId == userId && !accepted ==>
      r.result.error == Error(Some("Failed to delete comment"), Rejected)
    ensures r.result.Err? ==> r.store == s
    ensures r.result.Ok? ==>
      && r.store.comments.Keys == s.comments.Keys - {commentId}
      && (forall c :: c in r.store.comments ==> r.store.comments[c] == s.comments[c])
      && r.store.albums == s.albums && r.store.photos == s.photos && r.store.users == s.users
  {
    if !reachable then Reply(s, Err(Error(Some("Failed to delete comment"), Rejected)))
    else
      match Lookup(s.comments, commentId)
      case None => Reply(s, Err(Error(Some("Failed to delete comment"), CommentNotFound)))
      case Some(c) =>
        if c.userId != userId then Reply(s, Err(Error(Some("Failed to delete comment"), NotOwner)))
        else if !accepted then Reply(s, Err(Error(Some("Failed to delete comment"), Rejected)))
        else Reply(s.(comments := s.comments - {commentId}), Ok(()))
  }

  // ---------------------------------------------------------------------
  // Feed and profiles

  /** A feed entry: a photo joined with its album and its owner's profile. */
  datatype FeedItem = FeedItem(photo: Doc<Photo>, album: Option<Album>, user: Option<Profile>)

  /** `r` answers `getFeedPhotos(limit)`: at most `limit` stored photos, each
      once, newest first, no photo left out newer than one let in, all of
      them when fewer than `limit` came back, each joined with its album and
      owner. */
  ghost predicate IsFeed(s: Store, limit: nat, r: seq<FeedItem>) {
    && |r| <= limit
    && (forall i :: 0 <= i < |r| ==> r[i].photo.id in s.photos && s.photos[r[i].photo.id] == r[i].photo.data)
    && (forall i, j :: 0 <= i < j < |r| ==> r[i].photo.id != r[j].photo.id)
    && (forall i, j :: 0 <= i < j < |r| ==> r[i].photo.data.createdAt >= r[j].photo.data.createdAt)
    && (forall id, i :: id in s.photos && 0 <= i < |r| && s.photos[id].createdAt > r[i].photo.data.createdAt ==>
          exists j :: 0 <= j < |r| && r[j].photo.id == id)
    && (|r| < limit ==> forall id :: id in s.photos ==> exists j :: 0 <= j < |r| && r[j].photo.id == id)
    && (forall i :: 0 <= i < |r| ==>
          && r[i].album == Lookup(s.albums, r[i].photo.data.albumId)
          && r[i].user == Lookup(s.users, r[i].photo.data.userId))
  }

  /** Joins each photo with its album and its owner's profile, one lookup
      per row and relation. */
  function JoinFeed(s: Store, docs: seq<Doc<Photo>>): (r: seq<FeedItem>)
    ensures |r| == |docs|
    ensures forall i :: 0 <= i < |r| ==> r[i].photo == docs[i]
    ensures forall i :: 0 <= i < |r| ==>
      r[i].album == Lookup(s.albums, docs[i].data.albumId) && r[i].user == Lookup(s.users, docs[i].data.userId)
  {
    seq(|docs|, i requires 0 <= i < |docs| =>
      FeedItem(docs[i], Lookup(s.albums, docs[i].data.albumId), Lookup(s.users, docs[i].data.userId)))
  }

  /** `getFeedPhotos(limit)`: the newest `limit` photos, newest first. */
  method GetFeedPhotos(s: Store, limit: nat) returns (r: seq<FeedItem>)
    ensures IsFeed(s, limit, r)
  {
    var all := Query(s.photos, (p: Photo) => true, PhotoNewest);
    var n := if limit < |all| then limit else |all|;
    r := JoinFeed(s, all[..n]);
    FeedFromQuery(s, limit, all, n, r);
  }

  lemma FeedFromQuery(s: Store, limit: nat, all: seq<Doc<Photo>>, n: nat, r: seq<FeedItem>)
    requires IsQuery(s.photos, (p: Photo) => true, PhotoNewest, all)
    requires n == if limit < |all| then limit else |all|
    requires r == JoinFeed(s, all[..n])
    ensures IsFeed(s, limit, r)
  {
    FeedRowsStored(s, all, n, r);
    FeedRowsNewer(s, all, n, r);
    if n < limit {
      FeedRowsAll(s, all, r);
    }
  }

  lemma FeedRowsStored(s: Store, all: seq<Doc<Photo>>, n: nat, r: seq<FeedItem>)
    requires IsQuery(s.photos, (p: Photo) => true, PhotoNewest, all)
    requires n <= |all| && r == JoinFeed(s, all[..n])
    ensures forall i :: 0 <= i < |r| ==> r[i].photo.id in s.photos && s.photos[r[i].photo.id] == r[i].photo.data
    ensures forall i, j :: 0 <= i < j < |r| ==> r[i].photo.id != r[j].photo.id
    ensures forall i, j :: 0 <= i < j < |r| ==> r[i].photo.data.createdAt >= r[j].photo.data.createdAt
  {
    QueryIdsDistinct(s.photos, (p: Photo) => true, PhotoNewest, all);
    forall i | 0 <= i < |r| ensures r[i].photo.id in s.photos && s.photos[r[i].photo.id] == r[i].photo.data {
      assert r[i].photo == all[i] && all[i] in all;
    }
    forall i, j | 0 <= i < j < |r| ensures r[i].photo.data.createdAt >= r[j].photo.data.createdAt {
      assert PhotoNewest(all[i]) >= PhotoNewest(all[j]);
    }
  }

  lemma FeedRowsNewer(s: Store, all: seq<Doc<Photo>>, n: nat, r: seq<FeedItem>)
    requires IsQuery(s.photos, (p: Photo) => true, PhotoNewest, all)
    requires n <= |all| && r == JoinFeed(s, all[..n])
    ensures forall id, i :: id in s.photos && 0 <= i < |r| && s.photos[id].createdAt > r[i].photo.data.createdAt ==>
              exists j :: 0 <= j < |r| && r[j].photo.id == id
  {
    forall id, i | id in s.photos && 0 <= i < |r| && s.photos[id].createdAt > r[i].photo.data.createdAt
      ensures exists j :: 0 <= j < |r| && r[j].photo.id == id
    {
      assert r[i].photo == all[i];
      FeedKeepsNewer(s, all, n, id, i);
      var k :| 0 <= k < n && all[k].id == id;
      assert r[k].photo.id == id;
    }
  }

  lemma FeedRowsAll(s: Store, all: seq<Doc<Photo>>, r: seq<FeedItem>)
    requires IsQuery(s.photos, (p: Photo) => true, PhotoNewest, all)
    requires r == JoinFeed(s, all[..|all|])
    ensures forall id :: id in s.photos ==> exists j :: 0 <= j < |r| && r[j].photo.id == id
  {
    forall id | id in s.photos ensures exists j :: 0 <= j < |r| && r[j].photo.id == id {
      assert Doc(id, s.photos[id]) in all;
      var k :| 0 <= k < |all| && all[k] == Doc(id, s.photos[id]);
      assert r[k].photo.id == id;
    }
  }

  /** A photo newer than one inside the cut-off is inside it too. */
  lemma FeedKeepsNewer(s: Store, all: seq<Doc<Photo>>, n: nat, id: Id, i: nat)
    requires IsQuery(s.photos, (p: Photo) => true, PhotoNewest, all)
    requires i < n <= |all| && id in s.photos
    requires s.photos[id].createdAt > all[i].data.createdAt
    ensures exists k :: 0 <= k < n && all[k].id == id
  {
    assert Doc(id, s.photos[id]) in all;
    var k :| 0 <= k < |all| && all[k] == Doc(id, s.photos[id]);
  }

  /** A photo strictly newer than every other heads any feed of at least
      one row, joined with its album's title and its owner's username. */
  lemma NewestPhotoInFeed(s: Store, limit: nat, r: seq<FeedItem>, photoId: Id)
    requires IsFeed(s, limit, r) && limit >= 1
    requires photoId in s.photos
    requires forall id :: id in s.photos && id != photoId ==> s.photos[id].createdAt < s.photos[photoId].createdAt
    requires s.photos[photoId].albumId in s.albums && s.photos[photoId].userId in s.users
    ensures 0 < |r| && r[0].photo.id == photoId
    ensures r[0].album.value.title == s.albums[s.photos[photoId].albumId].title
    ensures r[0].user.value.username == s.users[s.photos[photoId].userId].username
  {
    var j := NewestRow(s, limit, r, photoId);
    assert r[j].photo.data == s.photos[photoId];
    assert r[0].photo.data.createdAt >= r[j].photo.data.createdAt;
    assert r[0].photo.id in s.photos && s.photos[r[0].photo.id] == r[0].photo.data;
  }

  /** The newest photo has a row in the feed. */
  lemma NewestRow(s: Store, limit: nat, r: seq<FeedItem>, photoId: Id) returns (j: nat)
    requires IsFeed(s, limit, r) && limit >= 1
    requires photoId in s.photos
    requires forall id :: id in s.photos && id != photoId ==> s.photos[id].createdAt < s.photos[photoId].createdAt
    ensures j < |r| && r[j].photo.id == photoId
  {
    if |r| == limit {
      var first := r[0].photo.id;
      assert first in s.photos && s.photos[first] == r[0].photo.data;
      assert first == photoId || s.photos[photoId].createdAt > r[0].photo.data.createdAt;
    }
    j :| 0 <= j < |r| && r[j].photo.id == photoId;
  }

  /** `getUserProfile`: the profile with its id, or "User not found". */
  function GetUserProfile(s: Store, userId: Id, reachable: bool): (r: Result<Doc<Profile>, Error>)
    ensures r.Ok? <==> reachable && userId in s.users
    ensures r.Ok? ==> r.value == Doc(userId, s.users[userId])
    ensures !reachable ==> r.error == Error(Some("Failed to get user profile"), Rejected)
    ensures reachable && userId !in s.users ==> r.error == Error(Some("Failed to get user profile"), UserNotFound)
  {
    if !reachable then Err(Error(Some("Failed to get user profile"), Rejected))
    else
      match Lookup(s.users, userId)
      case Some(p) => Ok(Doc(userId, p))
      case None => Err(Error(Some("Failed to get user profile"), UserNotFound))
  }
}

=== FILE: session.dfy ===
/** The process-wide session (`AuthProvider`): the signed-in user record, or
    none, and a loading flag, driven by the auth provider's state-change
    notifications. A record is a map from field name to value; the provider's
    sign-in, sign-up and sign-out calls appear only as the notifications they
    cause. */
module Session {
  import opened Results
  import Service

  datatype Value = Text(s: string) | Number(n: int)

  /** An object's own fields. */
  type Record = map<string, Value>

  datatype State = State(user: Option<Record>, loading: bool)

  /** The outcome of reading `users/{uid}`: the document's fields (absent
      when there is no such document), or a thrown error. */
  datatype ProfileRead = Found(data: Option<Record>) | Threw

  /** An auth-state notification: a user is signed in, together with what
      the handler's profile read returns, or nobody is. */
  datatype Event = SignedIn(auth: Record, lookup: ProfileRead) | SignedOut

  /** Before the first notification: no user, still loading. */
  const Initial: State := State(None, true)

  /** `{...auth, ...profile}`: every field of either record, the profile's
      value winning when both have one. */
  function Merge(auth: Record, profile: Record): (r: Record)
    ensures r.Keys == auth.Keys + profile.Keys
    ensures forall k :: k in profile ==> r[k] == profile[k]
    ensures forall k :: k in auth && k !in profile ==> r[k] == auth[k]
  {
    auth + profile
  }

  /** The `onAuthStateChanged` handler. */
  function OnAuthStateChanged(st: State, e: Event): (r: State)
    ensures !r.loading
    ensures e.SignedOut? ==> r.user == None
    ensures e.SignedIn? ==> r.user.Some?
    ensures e.SignedIn? && e.lookup.Found? && e.lookup.data.Some? ==>
      r.user.value == Merge(e.auth, e.lookup.data.value)
    ensures e.SignedIn? && (e.lookup.Threw? || e.lookup.data.None?) ==> r.user.value == e.auth
  {
    match e
    case SignedOut => State(None, false)
    case SignedIn(auth, lookup) =>
      match lookup
      case Threw => State(Some(auth), false)
      case Found(data) => State(Some(Merge(auth, data.UnwrapOr(map[]))), false)
  }

  /** The session after a run of notifications from the initial state. */
  function Run(events: seq<Event>): State {
    if events == [] then Initial else OnAuthStateChanged(Run(events[..|events| - 1]), events[|events| - 1])
  }

  /** Loading until the first notification and never again; afterwards the
      session is determined by the last notification alone. */
  lemma RunDependsOnLast(events: seq<Event>)
    ensures events == [] ==> Run(events) == State(None, true)
    ensures events != [] ==> !Run(events).loading
    ensures events != [] ==> Run(events) == OnAuthStateChanged(Initial, events[|events| - 1])
  {
  }

  /** The profile document as a record. */
  function ProfileRecord(p: Service.Profile): Record {
    map["username" := Text(p.username), "email" := Text(p.email), "createdAt" := Number(p.createdAt)]
  }

  /** The profile read the handler performs against a store, unless the read
      throws. */
  function ReadProfile(s: Service.Store, uid: string, reachable: bool): (r: ProfileRead)
    ensures !reachable <==> r.Threw?
    ensures reachable ==> (r.data.Some? <==> uid in s.users)
    ensures reachable && uid in s.users ==> r.data.value == ProfileRecord(s.users[uid])
  {
    if !reachable then Threw
    else if uid in s.users then Found(Some(ProfileRecord(s.users[uid])))
    else Found(None)
  }

  /** `register` after account creation: writes `users/{uid}` with the
      username, the email and a server timestamp, then sets the auth user's
      display name. `accepted` is whether the write succeeds and `renamed`
      whether `updateProfile` does; the last component is whether `register`
      resolves. A rejected write throws before the display name is set; a
      failed `updateProfile` throws after the document is written. */
  function Register(s: Service.Store, auth: Record, uid: string, username: string, email: string,
                    serverNow: int, accepted: bool, renamed: bool): (r: (Service.Store, Record, bool))
    ensures r.2 <==> accepted && renamed
    ensures accepted ==> uid in r.0.users && r.0.users[uid] == Service.Profile(username, email, serverNow)
    ensures accepted ==> r.0.albums == s.albums && r.0.photos == s.photos && r.0.comments == s.comments
    ensures accepted ==> forall u :: u in s.users && u != uid ==> u in r.0.users && r.0.users[u] == s.users[u]
    ensures accepted && renamed ==> r.1.Keys == auth.Keys + {"displayName"} && r.1["displayName"] == Text(username)
    ensures accepted && renamed ==> forall k :: k in auth && k != "displayName" ==> r.1[k] == auth[k]
    ensures accepted && !renamed ==> r.1 == auth
    ensures !accepted ==> r == (s, auth, false)
  {
    if !accepted then (s, auth, false)
    else
      var t := s.(users := s.users[uid := Service.Profile(username, email, serverNow)]);
      if renamed then (t, auth["displayName" := Text(username)], true) else (t, auth, false)
  }

  /** A user whose registration wrote the profile document and who is then
      signed in, with the profile read succeeding, has a session user
      carrying the username and the email given at registration; the display
      name is the username exactly when `updateProfile` succeeded, and
      otherwise whatever the auth record held. */
  lemma RegisterThenSignIn(s: Service.Store, auth: Record, uid: string, username: string, email: string,
                           serverNow: int, renamed: bool)
    ensures var (t, a, _) := Register(s, auth, uid, username, email, serverNow, true, renamed);
            var u := OnAuthStateChanged(Initial, SignedIn(a, ReadProfile(t, uid, true))).user.value;
            && u["username"] == Text(username)
            && u["email"] == Text(email)
            && (renamed ==> u["displayName"] == Text(username))
            && (!renamed ==> ("displayName" in u <==> "displayName" in auth))
            && (!renamed && "displayName" in auth ==> u["displayName"] == auth["displayName"])
  {
    var (t, a, _) := Register(s, auth, uid, username, email, serverNow, true, renamed);
    assert "displayName" !in ProfileRecord(t.users[uid]);
  }

  /** After an accepted registration, `getUserProfile` finds the profile
      that was written. */
  lemma RegisterThenGetProfile(s: Service.Store, auth: Record, uid: string, username: string, email: string,
                               serverNow: int, renamed: bool)
    ensures var (t, _, _) := Register(s, auth, uid, username, email, serverNow, true, renamed);
            Service.GetUserProfile(t, uid, true) == Ok(Service.Doc(uid, Service.Profile(username, email, serverNow)))
  {
  }
}

=== FILE: text.dfy ===
/** The JavaScript string operations the client relies on: `trim`, input
    truncation (`maxLength`), `split(c)[0]`, ASCII upper-casing and decimal
    rendering of non-negative integers (template-literal interpolation). */
module Text {

  /** ECMAScript WhiteSpace and LineTerminator code points, the set that
      `String.prototype.trim` removes. */
  const SpaceCodes: set<int> := {
    0x09, 0x0A, 0x0B, 0x0C, 0x0D, 0x20, 0xA0, 0x1680,
    0x2000, 0x2001, 0x2002, 0x2003, 0x2004, 0x2005, 0x2006, 0x2007, 0x2008, 0x2009, 0x200A,
    0x2028, 0x2029, 0x202F, 0x205F, 0x3000, 0xFEFF
  }

  predicate IsSpace(c: char) {
    c as int in SpaceCodes
  }

  predicate AllSpace(s: string) {
    forall i :: 0 <= i < |s| ==> IsSpace(s[i])
  }

  /** The first position at or after `from` that holds a non-space
      character, `|s|` when there is none. */
  function SkipSpace(s: string, from: nat): (i: nat)
    requires from <= |s|
    ensures from <= i <= |s|
    ensures forall k :: from <= k < i ==> IsSpace(s[k])
    ensures i < |s| ==> !IsSpace(s[i])
    decreases |s| - from
  {
    if from == |s| || !IsSpace(s[from]) then from else SkipSpace(s, from + 1)
  }

  /** The end of the last non-space character before `upto`, not going
      below `low`. */
  function SkipSpaceBack(s: string, low: nat, upto: nat): (j: nat)
    requires low <= upto <= |s|
    ensures low <= j <= upto
    ensures forall k :: j <= k < upto ==> IsSpace(s[k])
    ensures low < j ==> !IsSpace(s[j - 1])
    decreases upto
  {
    if upto == low || !IsSpace(s[upto - 1]) then upto else SkipSpaceBack(s, low, upto - 1)
  }

  /** `s.trim()`: the longest infix of `s` that starts and ends with a
      non-space character; everything cut off on either side is white space. */
  function Trim(s: string): (r: string)
    ensures r == [] <==> AllSpace(s)
    ensures r == [] || (!IsSpace(r[0]) && !IsSpace(r[|r| - 1]))
    ensures exists i :: 0 <= i <= |s| - |r| && r == s[i..i + |r|]
                        && AllSpace(s[..i]) && AllSpace(s[i + |r|..])
  {
    var i := SkipSpace(s, 0);
    var j := SkipSpaceBack(s, i, |s|);
    TrimBounds(s, i, j);
    s[i..j]
  }

  lemma TrimBounds(s: string, i: nat, j: nat)
    requires i == SkipSpace(s, 0) && j == SkipSpaceBack(s, i, |s|)
    ensures i < |s| ==> i < j
    ensures i == j <==> AllSpace(s)
    ensures AllSpace(s[..i]) && AllSpace(s[j..])
  {
    if i < |s| {
      assert !IsSpace(s[i]);
    }
    assert forall k :: 0 <= k < |s[j..]| ==> s[j..][k] == s[j + k];
  }

  /** Trimming twice is trimming once. */
  lemma TrimIdempotent(s: string)
    ensures Trim(Trim(s)) == Trim(s)
  {
    var t := Trim(s);
    if t != [] {
      assert SkipSpace(t, 0) == 0;
      assert SkipSpaceBack(t, 0, |t|) == |t|;
      assert t[0..|t|] == t;
    }
  }

  /** What a text input with `maxLength = max` keeps of the typed text. */
  function Truncate(s: string, max: nat): (r: string)
    ensures |r| <= max
    ensures |r| <= |s| && r == s[..|r|]
    ensures |s| <= max ==> r == s
    ensures |s| > max ==> |r| == max
  {
    if |s| <= max then s else s[..max]
  }

  /** `s.split(c)[0]`: the part of `s` before the first `c`, all of `s` when
      there is none. */
  function BeforeFirst(s: string, c: char): (r: string)
    ensures c !in r
    ensures |r| <= |s| && r == s[..|r|]
    ensures |r| < |s| ==> s[|r|] == c
    ensures c !in s ==> r == s
  {
    if s == [] || s[0] == c then [] else [s[0]] + BeforeFirst(s[1..], c)
  }

  /** Splitting at the first `c` recovers a prefix that has no `c`. */
  lemma {:induction false} BeforeFirstAt(a: string, c: char, b: string)
    requires c !in a
    ensures BeforeFirst(a + [c] + b, c) == a
  {
    if a == [] {
      assert a + [c] + b == [c] + b;
    } else {
      assert (a + [c] + b)[1..] == a[1..] + [c] + b;
      BeforeFirstAt(a[1..], c, b);
    }
  }

  /** `toUpperCase` on one character, for the ASCII letters. */
  function ToUpper(c: char): (r: char)
    ensures 'a' <= c <= 'z' ==> 'A' <= r <= 'Z' && r as int - c as int == 'A' as int - 'a' as int
    ensures !('a' <= c <= 'z') ==> r == c
  {
    if 'a' <= c <= 'z' then (c as int - 32) as char else c
  }

  predicate IsDigit(c: char) {
    '0' <= c <= '9'
  }

  function Digit(d: nat): (c: char)
    requires d < 10
    ensures IsDigit(c)
  {
    (48 + d) as char
  }

  /** Decimal rendering of a non-negative integer, without leading zeros. */
  function NatToString(n: nat): (r: string)
    ensures |r| >= 1
    ensures |r| == 1 <==> n < 10
    ensures forall i :: 0 <= i < |r| ==> IsDigit(r[i])
  {
    if n < 10 then [Digit(n)] else NatToString(n / 10) + [Digit(n % 10)]
  }

  /** Distinct numbers render to distinct strings. */
  lemma {:induction false} NatToStringInjective(a: nat, b: nat)
    requires NatToString(a) == NatToString(b)
    ensures a == b
  {
    if a < 10 {
      assert NatToString(a)[0] == NatToString(b)[0];
    } else {
      var sa, sb := NatToString(a), NatToString(b);
      assert b >= 10;
      assert sa[|sa| - 1] == sb[|sb| - 1];
      assert a % 10 == b % 10;
      assert sa[..|sa| - 1] == NatToString(a / 10);
      assert sb[..|sb| - 1] == NatToString(b / 10);
      NatToStringInjective(a / 10, b / 10);
    }
  }
}
